=== FILE: README.md ===
# ETL core: staging, warehouse and data-quality validation

This project models the three table-in/table-out phases of a small retail
ETL pipeline written with pandas, and proves properties of the model:

- **Staging** (`src/transform_staging.py`). Each raw source table (users,
  products, orders, order items, events, reviews) is cleaned. Date and
  numeric columns are coerced, and an unparseable value becomes missing.
  Text columns go through `astype(str)`, are stripped, and are optionally
  lower- or title-cased. Rows are then deduplicated by primary key, keeping
  the first row of each key. `stage_all` runs the six stages in order.
- **Warehouse** (`src/transform_warehouse.py`). The builders add derived
  columns:
  - the signup year and month to users;
  - the event date and hour to events;
  - a missing `item_total` filled in as quantity × item price.

  Products, orders and reviews are copied unchanged. `build_warehouse` runs
  the six builders in order.
- **Validation** (`src/validation.py`). There are four check families:
  - null primary keys;
  - referential integrity, counted as distinct orphaned foreign-key values;
  - future dates;
  - numeric domains.

  Each family yields a dictionary of counts. `validate_all` folds the four
  into one verdict and raises `ValidationError` on failure when asked to.

How the model is built:

- **Tables and cells.** A table is a column list plus a sequence of rows. A
  row maps column names to cells. A cell is `Option<Value>`, where `None` is
  pandas' NaN/NaT. A value is a number (`real`), a text, a timestamp (day
  number and nanosecond of the day) or a date (day number).
- **Exceptions.** A pandas exception is an `Err` of the `Result` datatype:
  `KeyError` for a missing table or column, `CoercionError` when a parser
  raises, and `AttributeError` for `.dt` on a column that is not
  datetime-like. A phase's `try`/`raise` is modelled as the first failing
  call's error propagating.
- **Files.**
  - `tables.dfy`: cells, rows, tables, errors, counting.
  - `strings.dfy`: `str.strip`, `str.lower` and `str.title`.
  - `coercion.dfy`: `to_numeric`, `to_datetime` and `astype(str)`. They are
    parameterised by the library's parsers.
  - `dedup.dfy`: `drop_duplicates(subset=key)`.
  - `calendar.dfy`: the proleptic Gregorian calendar behind `.dt.year` and
    `.dt.month`.
  - `jobs.dfy`: the "dictionary literal of calls" shape shared by
    `stage_all` and `build_warehouse`.
  - `staging.dfy`, `warehouse.dfy`, `validation.dfy`: the three phases.

Five behaviours of the code that the model keeps:

- Staging never removes rows whose key is null. It only counts them for a
  warning. Deduplication then keeps exactly one null-key row.
- Review ratings are coerced to numbers but never clamped or flagged.
- The referential check counts distinct orphaned values, not orphaned rows.
- An `item_total` that is already present is kept, even when it differs
  from quantity × item price.
- The process entry point returns exit status 0 even when validation fails
  (`run_all.py:119-128`). It is outside this model.

## Model

| member | source | states |
|---|---|---|
| Strings.Strip | src/transform_staging.py:28 | `str.strip` leaves no whitespace at either end of its result |
| Strings.StripIsInfix | src/transform_staging.py:28 | the stripped string is the contiguous slice of the input that starts at the first kept character |
| Strings.StripDropsOnlyWhitespace | src/transform_staging.py:28 | everything `str.strip` drops, before and after the kept slice, is whitespace |
| Strings.StripIdempotent | src/transform_staging.py:28 | stripping a stripped string changes nothing |
| Strings.Lower | src/transform_staging.py:82 | `str.lower` keeps the length, leaves no upper-case letter, and puts at every position the same letter as the input (or the same uncased character) |
| Strings.LowerUnique | src/transform_staging.py:82 | the lower-cased string is the only string with the input's letters in the input's order and no upper-case letter |
| Strings.LowerIdempotent | src/transform_staging.py:140 | lower-casing twice is lower-casing once |
| Strings.Title | src/transform_staging.py:27 | `str.title` keeps the length and puts at every position the same letter as the input (or the same uncased character) |
| Strings.TitleAt | src/transform_staging.py:27 | character i of the title-cased string is the lower-case form of the input's character when the input's previous character is a letter, and its upper-case form otherwise |
| Strings.TitleShape | src/transform_staging.py:27 | `str.title` keeps which characters are letters, leaves non-letters in place, and yields a titled string: a letter is upper-case exactly when no letter precedes it directly |
| Strings.TitleUnique | src/transform_staging.py:27 | the title-cased string is the only titled string with the input's letters in the input's order |
| Strings.TitleIdempotent | src/transform_staging.py:27 | title-casing twice is title-casing once |
| Coercion.ToNumeric | src/transform_staging.py:48 | `to_numeric(errors='coerce')` yields a number or a missing value; a missing value stays missing and a number passes through unchanged; any other value becomes the parser's number when the parser reads it and missing when it cannot |
| Coercion.ToDatetime | src/transform_staging.py:22 | `to_datetime(errors='coerce')` yields a timestamp or a missing value; a timestamp passes through and a date becomes its midnight; any other value becomes the parser's timestamp when the parser reads it and missing when it cannot |
| Coercion.AsStr | src/transform_staging.py:27-28 | `astype(str)` turns a missing value into the text "nan" and keeps a text as it is |
| Dedup.DropDuplicates | src/transform_staging.py:31 | `drop_duplicates(subset=key)` never adds rows, leaves no two rows with the same key, and loses no key value (a missing key included) |
| Dedup.DropDuplicatesKeepsFirst | src/transform_staging.py:31 | the output is the subsequence of the input made of exactly the first row of each key, in input order |
| Dedup.DropDuplicatesCount | src/transform_staging.py:30-34 | the output has one row per distinct key, so the number dropped is the input size minus the number of distinct keys |
| Dedup.DropDuplicatesIdempotent | src/transform_staging.py:31 | deduplicating twice is deduplicating once |
| Staging.NormalizeIdempotent | src/transform_staging.py:27-28 | every text normalisation (strip, strip+lower, strip+title) is idempotent |
| Staging.StageFacts | src/transform_staging.py:11-35 | the stage shared by all six functions succeeds iff the key column exists and every step can run; a missing key column is a KeyError raised before any step; the output's keys are distinct and are the input's keys; every converted column is in its normal form |
| Staging.StageRows | src/transform_staging.py:11-35 | a successful stage keeps the columns; output row k is the first input row of its key with the stage's columns converted: each present step column holds that step's conversion of the input cell (stripped and cased text, a coerced number or timestamp), and every other column holds the input cell; keys are distinct and none is lost |
| Staging.StageCells | src/transform_staging.py:22-31 | in staging output row k, each present step column holds the step's conversion of the cell in the kept input row, and every column no step writes holds that input cell unchanged |
| Staging.StageIdempotent | src/transform_staging.py:11-35 | staging an already staged table returns it unchanged |
| Staging.StageUsers | src/transform_staging.py:11-35 | stage_users succeeds iff the four columns exist and no signup date makes the parser raise; a missing `user_id` is a KeyError; signup dates are timestamps or missing, gender is stripped and title-cased, city is stripped |
| Staging.StageProducts | src/transform_staging.py:38-64 | stage_products needs `rating` only when present; price (and rating) become numbers or missing, category and brand are stripped; rows are deduplicated by `product_id` |
| Staging.StageOrders | src/transform_staging.py:67-93 | stage_orders coerces the order date and amount, strips and lower-cases the status, deduplicates by `order_id`; a missing column or raising parser is the error |
| Staging.StageOrderItems | src/transform_staging.py:96-122 | stage_order_items coerces quantity, item price and, when the column exists, item total; deduplicates by `order_item_id` |
| Staging.StageEvents | src/transform_staging.py:125-147 | stage_events coerces the timestamp, strips and lower-cases the event type, deduplicates by `event_id` |
| Staging.StageReviews | src/transform_staging.py:150-175 | stage_reviews coerces rating and review date and deduplicates by `review_id`; success iff the columns exist and no parser raises |
| Staging.RestagingIsIdentity | src/transform_staging.py:11-175 | for each of the six stages, re-staging its output returns the same table |
| Staging.NullKeysSurviveOnce | src/transform_staging.py:18-20 | null keys are only counted: the output holds exactly one null-key row when the input holds any, none otherwise |
| Staging.ReviewRatingsNotClamped | src/transform_staging.py:160-163 | each output rating is the coerced input rating of its row, whatever its value: nothing is clamped |
| Staging.MissingGenderBecomesNan | src/transform_staging.py:27-28 | a missing gender comes out as the text "Nan" and a missing city as "nan" |
| Jobs.RunJobs | src/transform_staging.py:184-199 | a dictionary of calls evaluated in order succeeds iff every call reads an existing table and succeeds; it then maps every output name to its call's result; otherwise the error is that of the first failing call |
| Staging.StageAll | src/transform_staging.py:178-199 | a successful stage_all holds exactly the six source names |
| Staging.StageAllSucceeds | src/transform_staging.py:184-199 | stage_all succeeds iff all six raw tables exist and all six stages succeed on them; a missing `users` table is the KeyError raised |
| Staging.StageAllTables | src/transform_staging.py:190-197 | a successful stage_all holds, under each source name, that stage's result on the raw table of the same name |
| Calendar.CivilFromDays | src/transform_warehouse.py:17-18 | the civil date of a day number is a valid Gregorian date whose day number is the input |
| Calendar.DaysFromCivilInjective | src/transform_warehouse.py:17-18 | two valid dates with the same day number are the same date |
| Calendar.CivilRoundTrip | src/transform_warehouse.py:17-18 | every valid date is recovered from its day number |
| Calendar.UnixEpoch | src/transform_warehouse.py:17-18 | day number 0 is the valid date 1970-01-01 |
| Calendar.NextDayIsNextNumber | src/transform_warehouse.py:17-18 | the calendar day after a valid date (across month, February and year ends) has the next day number, so together with the epoch the numbering is the real Gregorian calendar |
| Warehouse.DtYear | src/transform_warehouse.py:17 | `.dt.year` is present exactly for a timestamp, and is then the year of the valid calendar date with the timestamp's day number |
| Warehouse.DtMonth | src/transform_warehouse.py:18 | `.dt.month` is present exactly for a timestamp, and is then the month of the valid calendar date with the timestamp's day number |
| Warehouse.DtDate | src/transform_warehouse.py:70 | `.dt.date` is present exactly for a timestamp, and is then the date whose midnight is at or before the timestamp and whose next midnight is after it |
| Warehouse.DtHour | src/transform_warehouse.py:71 | `.dt.hour` is present exactly for a timestamp, and is then the whole number h in 0..23 such that the time of day lies in hour h |
| Warehouse.BuildDimUsers | src/transform_warehouse.py:11-22 | build_dim_users succeeds iff `signup_date` exists and is datetime-like; it adds `signup_year` and `signup_month`, changes nothing else, keeps every row; each is the year and month (1..12) of a valid calendar date with the signup's day number, both missing when the date is |
| Warehouse.SignupYearMonthOfDate | src/transform_warehouse.py:17-18 | the derived year and month agree with every calendar date having the signup's day number |
| Warehouse.BuildFactOrderItems | src/transform_warehouse.py:41-61 | an existing `item_total` is filled with quantity × item price only where missing; other rows are unchanged; an absent column is created for every row; a product is missing iff a factor is; missing factors' columns are KeyErrors |
| Warehouse.BuildFactOrderItemsIdempotent | src/transform_warehouse.py:47-58 | building order items from built order items changes nothing |
| Warehouse.BuildFactEvents | src/transform_warehouse.py:64-75 | build_fact_events adds `event_date` (the timestamp's day) and `event_hour` (an integer 0..23 whose hour contains the time of day), both missing when the timestamp is; nothing else changes |
| Warehouse.Build | src/transform_warehouse.py:25-83 | every builder keeps the row count; dim_products, fact_orders and fact_reviews return their input unchanged |
| Warehouse.BuildWarehouse | src/transform_warehouse.py:86-112 | a successful build_warehouse holds exactly the six warehouse table names |
| Warehouse.BuildWarehouseSucceeds | src/transform_warehouse.py:92-112 | build_warehouse succeeds iff the six staged tables exist and the users, order-items and events builders succeed; a missing `users` table is the KeyError raised |
| Warehouse.BuildWarehouseTables | src/transform_warehouse.py:93-100 | each warehouse table is its builder applied to the matching staged table; the three copies equal their inputs |
| Warehouse.BuildWarehouseKeepsRows | src/transform_warehouse.py:14-83 | every warehouse table has exactly as many rows as its staged table |
| Validation.Collect | src/validation.py:34-45 | a family's dictionary has one key per reported entry holding its count; any exception abandons the family |
| Validation.CollectFails | src/validation.py:227-233 | a family counts as failed iff one of its entries raises or reports a positive count |
| Validation.CheckNullPrimaryKeys | src/validation.py:17-52 | an entry exactly for each listed table present: -1 when its key column is absent, else its number of null keys |
| Validation.NullKeysFamilyPasses | src/validation.py:227-233 | the family passes iff no present key column holds a null |
| Validation.OrphanProbe | src/validation.py:102-121 | a rule is skipped iff a table or column is absent; otherwise it reports the number of distinct child values missing from the parent keys, which is 0 iff every non-null foreign key resolves and never exceeds the child's row count |
| Validation.OrphansEmptyIff | src/validation.py:113-121 | the orphan count is zero iff every non-null foreign key occurs among the parent keys; null foreign keys never count |
| Validation.OrphansBounded | src/validation.py:114-118 | the orphan count is at most the number of distinct non-null foreign keys, which is at most the number of rows |
| Validation.CheckReferentialIntegrity | src/validation.py:55-128 | an entry exactly for each rule whose two tables and two columns exist, holding its distinct orphan count |
| Validation.ForeignKeysFamilyPasses | src/validation.py:235-241 | the family passes iff every applicable rule resolves |
| Validation.FutureDateProbe | src/validation.py:148-163 | -1 for an absent column, an exception when coercion raises, else the number of rows whose coerced date is later than the start of `today` |
| Validation.CheckDateRanges | src/validation.py:131-170 | raises iff some present date column raises; otherwise an entry exactly for each listed table present, -1 or its future-date count |
| Validation.DatesFamilyPasses | src/validation.py:243-249 | the family passes iff no present date column raises or holds a future date |
| Validation.RangeProbe | src/validation.py:187-200 | skipped iff the column is absent, an exception when coercion raises, else the number of present values outside the domain |
| Validation.CheckNumericRanges | src/validation.py:173-207 | raises iff some present checked column raises; otherwise an entry exactly for each check whose table and column exist, holding the number of present values below 0 (or not above 0 for quantity) |
| Validation.RangesFamilyPasses | src/validation.py:251-257 | the family passes iff no present checked column raises or holds an out-of-domain value |
| Validation.ValidateAll | src/validation.py:210-269 | raises `ValidationError` iff `fail_on_error` is set and the data is not clean; otherwise returns whether it is clean: no present key is null, every applicable foreign key resolves, and no present date or range column raises or violates its bound |
| Validation.AllPassedMeaning | src/validation.py:225-269 | the four families all pass iff the data is clean; -1 entries and absent tables never fail, and an exception in one family does not stop the others |

## Left out

- Logging, timing and the warning messages are not modelled. They have no effect on the returned tables.
- `load_processed_tables`, CSV extraction and loading, SQLite, the dashboards and the incremental-state file are all file or database I/O. They are not part of this model.
- The orchestration in `src/pipeline.py` and `run_all.py` only sequences I/O stages. Its exit status is not modelled.
- How pandas parses a string into a number or a timestamp, and how it renders a non-text value as a string, are parameters of the model (`Coercion.Library`). A parser may return a value, report the value unparseable (it becomes missing) or raise.
- `datetime.now()` is not modelled. `check_date_ranges` takes `today` as a day-number parameter (`Validation.IsFuture`).
- Floating-point arithmetic is modelled as exact `real` arithmetic. Integers and floats are one numeric type, as pandas compares them.
- `Strings.Lower`, `Strings.LowerUnique`, `Strings.Title`, `Strings.TitleAt`, `Strings.TitleShape`, `Strings.TitleUnique`: case mapping covers ASCII letters only, because Unicode case tables are not modelled.
- Column dtypes are not modelled. A column counts as datetime-like when every present cell is a timestamp; an all-missing column counts as datetime-like.
- `Warehouse.BuildFactOrderItems`: a non-numeric factor is always a TypeError. pandas' string-times-integer repetition is not modelled.
- `check_date_ranges` and `check_numeric_ranges` write the coerced column back into the caller's table (`src/validation.py:159`, `196`). The model treats them as pure, and no later check reads those columns.
- `Validation.CheckDateRanges`: an exception while comparing timestamps (for example, time-zone-aware against naive) is not modelled. Only a raising parser makes the family raise.
- `Validation.OrphanProbe`: a NaN among the parent keys is ignored. The child values are never NaN, since `dropna` removes them, so the difference is the same.
- `Warehouse.Times`: pandas multiplies object-dtype columns element by element and gives NaN where a factor is missing. So a text quantity times a missing price is NaN there, while the model raises a TypeError. Staged factors are numeric, so this does not arise in the pipeline.
- `Coercion.AsStr`: the model has one missing value, and it renders as "nan". pandas renders NaT as "NaT" and a Python `None` as "None". The staged text columns hold neither.
- `Coercion.Library`: the datetime parser sees one cell at a time. So `to_datetime`'s format inference from the whole column cannot be expressed.

=== FILE: calendar.dfy ===
/**
 * Proleptic Gregorian calendar arithmetic on day numbers (days since
 * 1970-01-01), as used by pandas' `.dt.year`, `.dt.month` and `.dt.date`
 * accessors.  The conversion is the era-based algorithm: a 400-year era
 * holds exactly 146097 days, and years are counted from March so that the
 * leap day falls at the end of the year.
 */
module Calendar {

  const DaysPerEra: int := 146097
  /** Day number of 0000-03-01 relative to 1970-01-01. */
  const EpochShift: int := 719468

  type Month = m: int | 1 <= m <= 12 witness 1
  type DayOfMonth = d: int | 1 <= d <= 31 witness 1

  datatype Civil = Civil(year: int, month: Month, day: DayOfMonth)

  predicate IsLeapYear(y: int) {
    y % 4 == 0 && (y % 100 != 0 || y % 400 == 0)
  }

  function DaysInMonth(y: int, m: Month): (n: int)
    ensures 28 <= n <= 31
  {
    if m == 2 then (if IsLeapYear(y) then 29 else 28)
    else if m == 4 || m == 6 || m == 9 || m == 11 then 30
    else 31
  }

  predicate ValidCivil(c: Civil) {
    c.day <= DaysInMonth(c.year, c.month)
  }

  /** `c` is the valid calendar date numbered `z`. */
  predicate IsDateOf(c: Civil, z: int) {
    ValidCivil(c) && DaysFromCivil(c) == z
  }

  /** Index of a month in a March-based year: March is 0, February is 11. */
  function MarchIndex(m: Month): (mp: int)
    ensures 0 <= mp <= 11
  {
    if m > 2 then m - 3 else m + 9
  }

  /** Day of the March-based year on which month `mp` starts. */
  function MonthStart(mp: int): int
    requires 0 <= mp <= 11
  {
    (153 * mp + 2) / 5
  }

  /** Days from 1970-01-01 to the given civil date. */
  function DaysFromCivil(c: Civil): int
  {
    var y := if c.month <= 2 then c.year - 1 else c.year;
    var era := y / 400;
    var yoe := y - era * 400;
    var doy := MonthStart(MarchIndex(c.month)) + c.day - 1;
    var doe := yoe * 365 + yoe / 4 - yoe / 100 + doy;
    era * DaysPerEra + doe - EpochShift
  }

  /**
   * Splits day `doe` of a 400-year era into the March-based year of the era
   * and the day of that year: three 36524-day centuries and a 36525-day one,
   * each made of 1461-day four-year blocks (the last block of the first three
   * centuries is one day short), each block three 365-day years and a final
   * year that carries the leap day when there is one.
   */
  function YearOfEra(doe: int): (r: (int, int))
    requires 0 <= doe < DaysPerEra
    ensures 0 <= r.0 <= 399 && 0 <= r.1 <= 365
    ensures 365 * r.0 + r.0 / 4 - r.0 / 100 + r.1 == doe
    ensures r.1 == 365 ==> r.0 % 4 == 3 && (r.0 % 100 != 99 || r.0 == 399)
  {
    var cent := if doe / 36524 < 3 then doe / 36524 else 3;
    var doc := doe - 36524 * cent;
    var quad := doc / 1461;
    var doq := doc % 1461;
    var yq := if doq / 365 < 3 then doq / 365 else 3;
    var yoe := 100 * cent + 4 * quad + yq;
    assert yoe / 4 == 25 * cent + quad;
    assert yoe / 100 == cent;
    (yoe, doq - 365 * yq)
  }

  /** March-based month index that contains day `doy` (0..365) of the year. */
  function MonthOfYear(doy: int): (mp: int)
    requires 0 <= doy <= 365
    ensures 0 <= mp <= 11
    ensures MonthStart(mp) <= doy
    ensures mp < 11 ==> doy < MonthStart(mp + 1)
  {
    (5 * doy + 2) / 153
  }

  /** Converts a March-based month index back to a calendar month. */
  function MonthOfIndex(mp: int): (m: Month)
    requires 0 <= mp <= 11
    ensures MarchIndex(m) == mp
  {
    if mp < 10 then mp + 3 else mp - 9
  }

  /** The day of month computed from a day of year fits in its month. */
  lemma DayFitsMonth(era: int, yoe: int, doy: int)
    requires 0 <= yoe <= 399 && 0 <= doy <= 365
    requires doy == 365 ==> yoe % 4 == 3 && (yoe % 100 != 99 || yoe == 399)
    ensures var mp := MonthOfYear(doy);
            var m := MonthOfIndex(mp);
            var y := yoe + era * 400 + (if m <= 2 then 1 else 0);
            doy - MonthStart(mp) + 1 <= DaysInMonth(y, m)
  {
    var mp := MonthOfYear(doy);
    var m := MonthOfIndex(mp);
    if mp == 11 {
      assert MonthStart(11) == 337;
      if doy == 365 {
        var y := yoe + era * 400 + 1;
        assert y == 400 * era + yoe + 1;
        ShiftByEras(era, yoe);
      }
    }
  }

  /** The civil date on day `doy` of March-based year `yoe` of era `era`. */
  function CivilOfParts(era: int, yoe: int, doy: int): (c: Civil)
    requires 0 <= yoe <= 399 && 0 <= doy < YearLength(yoe)
    ensures ValidCivil(c)
    ensures DaysFromCivil(c) + EpochShift == era * DaysPerEra + YearStart(yoe) + doy
  {
    var mp := MonthOfYear(doy);
    var m := MonthOfIndex(mp);
    DayFitsMonth(era, yoe, doy);
    ShiftByEras(era, yoe);
    assert yoe + era * 400 == 400 * era + yoe;
    Civil(yoe + era * 400 + (if m <= 2 then 1 else 0), m, doy - MonthStart(mp) + 1)
  }

  /** The civil date of a day number. */
  function CivilFromDays(z: int): (c: Civil)
    ensures ValidCivil(c)
    ensures DaysFromCivil(c) == z
  {
    var era := (z + EpochShift) / DaysPerEra;
    var doe := (z + EpochShift) % DaysPerEra;
    var (yoe, doy) := YearOfEra(doe);
    CivilOfParts(era, yoe, doy)
  }

  /** Days of March-based year `a` of an era: 366 when the February that ends it has a leap day. */
  function YearLength(a: int): int {
    if a % 4 == 3 && (a % 100 != 99 || a == 399) then 366 else 365
  }

  /** Day of the era on which March-based year `a` starts. */
  function YearStart(a: int): int {
    365 * a + a / 4 - a / 100
  }

  /** Consecutive years of an era abut; the last one ends where the era does. */
  lemma YearStartStep(a: int)
    requires 0 <= a <= 399
    ensures a < 399 ==> YearStart(a + 1) == YearStart(a) + YearLength(a)
    ensures a == 399 ==> YearStart(a) + YearLength(a) == DaysPerEra
  {
  }

  lemma {:induction false} YearStartGrows(a: int, b: int)
    requires 0 <= a < b <= 399
    ensures YearStart(b) >= YearStart(a) + YearLength(a)
    decreases b - a
  {
    YearStartStep(b - 1);
    if b > a + 1 {
      YearStartGrows(a, b - 1);
    }
  }

  /** A year of the era and a day within it are the only split `YearOfEra` can return. */
  lemma YearOfEraUnique(yoe: int, doy: int)
    requires 0 <= yoe <= 399 && 0 <= doy < YearLength(yoe)
    ensures 0 <= YearStart(yoe) + doy < DaysPerEra
    ensures YearOfEra(YearStart(yoe) + doy) == (yoe, doy)
  {
    YearStartStep(399);
    if yoe < 399 {
      YearStartGrows(yoe, 399);
    }
    var doe := YearStart(yoe) + doy;
    var (a, b) := YearOfEra(doe);
    assert b < YearLength(a);
    if a < yoe {
      YearStartGrows(a, yoe);
    } else if yoe < a {
      YearStartGrows(yoe, a);
    }
  }

  lemma MonthOfYearUnique(m: Month, day: int, leap: bool)
    requires 1 <= day <= (if m == 2 then (if leap then 29 else 28) else DaysInMonth(1, m))
    ensures 0 <= MonthStart(MarchIndex(m)) + day - 1 <= 365
    ensures MonthOfYear(MonthStart(MarchIndex(m)) + day - 1) == MarchIndex(m)
  {
    var mp := MarchIndex(m);
    var doy := MonthStart(mp) + day - 1;
    var k := MonthOfYear(doy);
    assert MonthStart(0) == 0 && MonthStart(1) == 31 && MonthStart(2) == 61 && MonthStart(3) == 92;
    assert MonthStart(4) == 122 && MonthStart(5) == 153 && MonthStart(6) == 184 && MonthStart(7) == 214;
    assert MonthStart(8) == 245 && MonthStart(9) == 275 && MonthStart(10) == 306 && MonthStart(11) == 337;
  }

  /** The era, March-based year of era and day of year of a civil date, as `DaysFromCivil` computes them. */
  function EraOf(c: Civil): int {
    (if c.month <= 2 then c.year - 1 else c.year) / 400
  }

  function YearOfEraOf(c: Civil): int {
    (if c.month <= 2 then c.year - 1 else c.year) - EraOf(c) * 400
  }

  function DayOfYearOf(c: Civil): int {
    MonthStart(MarchIndex(c.month)) + c.day - 1
  }

  /** Shifting a year of the era by whole eras changes neither its remainders nor its leap-year tests. */
  lemma ShiftByEras(q: int, r: int)
    requires 0 <= r < 400
    ensures (400 * q + r) / 400 == q && (400 * q + r) % 400 == r
    ensures (400 * q + r + 1) % 4 == 0 <==> r % 4 == 3
    ensures (400 * q + r + 1) % 100 == 0 <==> r % 100 == 99
    ensures (400 * q + r + 1) % 400 == 0 <==> r == 399
  {
    ShiftMod(q, r, 400);
    ShiftMod(q, r + 1, 4);
    ShiftMod(q, r + 1, 100);
    ShiftMod(q, r + 1, 400);
  }

  lemma ShiftMod(q: int, r: int, m: int)
    requires m == 4 || m == 100 || m == 400
    ensures (400 * q + r) % m == r % m
    ensures (400 * q + r) / m == (400 / m) * q + r / m
  {
    var k := 400 / m;
    assert 400 * q + r == m * (k * q + r / m) + r % m;
  }

  /** A February 29 lies in the last March-based year of a four-year block, and not in a non-leap century's. */
  lemma LeapDayYearOfEra(y: int)
    requires IsLeapYear(y + 1)
    ensures var yoe := y % 400; yoe % 4 == 3 && (yoe % 100 != 99 || yoe == 399)
  {
    var q, r := y / 400, y % 400;
    assert y + 1 == 400 * q + r + 1;
    ShiftByEras(q, r);
  }

  /** A valid date's parts are in range and add up to its day number. */
  lemma CivilParts(c: Civil)
    requires ValidCivil(c)
    ensures 0 <= YearOfEraOf(c) <= 399
    ensures 0 <= DayOfYearOf(c) < YearLength(YearOfEraOf(c))
    ensures MonthOfYear(DayOfYearOf(c)) == MarchIndex(c.month)
    ensures DaysFromCivil(c) + EpochShift == EraOf(c) * DaysPerEra + YearStart(YearOfEraOf(c)) + DayOfYearOf(c)
  {
    var y := if c.month <= 2 then c.year - 1 else c.year;
    assert YearOfEraOf(c) == y % 400;
    MonthOfYearUnique(c.month, c.day, IsLeapYear(c.year));
    if c.month == 2 && c.day == 29 {
      LeapDayYearOfEra(y);
    }
  }

  /** Two valid dates with the same parts are the same date. */
  lemma PartsDetermineCivil(c1: Civil, c2: Civil)
    requires ValidCivil(c1) && ValidCivil(c2)
    requires EraOf(c1) == EraOf(c2) && YearOfEraOf(c1) == YearOfEraOf(c2) && DayOfYearOf(c1) == DayOfYearOf(c2)
    ensures c1 == c2
  {
    CivilParts(c1);
    CivilParts(c2);
    MarchIndexInjective(c1.month, c2.month);
  }

  lemma EraSplitUnique(e1: int, d1: int, e2: int, d2: int)
    requires 0 <= d1 < DaysPerEra && 0 <= d2 < DaysPerEra
    requires e1 * DaysPerEra + d1 == e2 * DaysPerEra + d2
    ensures e1 == e2 && d1 == d2
  {
  }

  lemma MarchIndexInjective(m1: Month, m2: Month)
    requires MarchIndex(m1) == MarchIndex(m2)
    ensures m1 == m2
  {
  }

  /** Distinct valid civil dates have distinct day numbers. */
  lemma DaysFromCivilInjective(c1: Civil, c2: Civil)
    requires ValidCivil(c1) && ValidCivil(c2)
    requires DaysFromCivil(c1) == DaysFromCivil(c2)
    ensures c1 == c2
  {
    SameDayNumberSameParts(c1, c2);
    PartsDetermineCivil(c1, c2);
  }

  lemma SameDayNumberSameParts(c1: Civil, c2: Civil)
    requires ValidCivil(c1) && ValidCivil(c2)
    requires DaysFromCivil(c1) == DaysFromCivil(c2)
    ensures EraOf(c1) == EraOf(c2) && YearOfEraOf(c1) == YearOfEraOf(c2) && DayOfYearOf(c1) == DayOfYearOf(c2)
  {
    var a1, d1 := YearOfEraOf(c1), DayOfYearOf(c1);
    var a2, d2 := YearOfEraOf(c2), DayOfYearOf(c2);
    CivilParts(c1);
    CivilParts(c2);
    YearOfEraUnique(a1, d1);
    YearOfEraUnique(a2, d2);
    EraSplitUnique(EraOf(c1), YearStart(a1) + d1, EraOf(c2), YearStart(a2) + d2);
    // equal days of the era split into equal years of the era and days of the year
    assert (a1, d1) == YearOfEra(YearStart(a1) + d1) == YearOfEra(YearStart(a2) + d2) == (a2, d2);
  }

  /** Every valid civil date survives the round trip through its day number. */
  lemma CivilRoundTrip(c: Civil)
    requires ValidCivil(c)
    ensures CivilFromDays(DaysFromCivil(c)) == c
  {
    DaysFromCivilInjective(CivilFromDays(DaysFromCivil(c)), c);
  }

  /** Day number 0 is 1970-01-01, the Unix epoch pandas counts from. */
  lemma UnixEpoch()
    ensures ValidCivil(Civil(1970, 1, 1))
    ensures DaysFromCivil(Civil(1970, 1, 1)) == 0
  {
    // January belongs to the March-based year 1969: era 4, year 369 of the era, day 306 of that year
    assert MarchIndex(1) == 10 && MonthStart(10) == 306;
    assert 1969 / 400 == 4 && 1969 - 4 * 400 == 369;
    assert 369 * 365 + 369 / 4 - 369 / 100 + 306 == 135080;
    assert 4 * DaysPerEra + 135080 == EpochShift;
  }

  /** The calendar day after a valid date: next day of the month, first of the next month, or New Year's Day. */
  function NextDay(c: Civil): (d: Civil)
    requires ValidCivil(c)
    ensures ValidCivil(d)
  {
    if c.day < DaysInMonth(c.year, c.month) then Civil(c.year, c.month, c.day + 1)
    else if c.month < 12 then Civil(c.year, c.month + 1, 1)
    else Civil(c.year + 1, 1, 1)
  }

  /** Consecutive calendar days have consecutive day numbers. */
  lemma NextDayIsNextNumber(c: Civil)
    requires ValidCivil(c)
    ensures DaysFromCivil(NextDay(c)) == DaysFromCivil(c) + 1
  {
    var d := NextDay(c);
    if c.month == 2 && c.day == DaysInMonth(c.year, 2) {
      LastDayOfFebruary(c);
    } else {
      assert MonthStart(0) == 0 && MonthStart(1) == 31 && MonthStart(2) == 61 && MonthStart(3) == 92;
      assert MonthStart(4) == 122 && MonthStart(5) == 153 && MonthStart(6) == 184 && MonthStart(7) == 214;
      assert MonthStart(8) == 245 && MonthStart(9) == 275 && MonthStart(10) == 306 && MonthStart(11) == 337;
    }
  }

  /** The last day of February ends a March-based year, so the next day starts the following one. */
  lemma LastDayOfFebruary(c: Civil)
    requires ValidCivil(c) && c.month == 2 && c.day == DaysInMonth(c.year, 2)
    ensures DaysFromCivil(NextDay(c)) == DaysFromCivil(c) + 1
  {
    var d := Civil(c.year, 3, 1);
    assert NextDay(c) == d;
    var y := c.year - 1;
    var era, a := y / 400, y % 400;
    DayNumberSplit(c);
    DayNumberSplit(d);
    assert EraOf(c) == era && YearOfEraOf(c) == a;
    assert DayOfYearOf(c) + 1 == 337 + c.day;
    assert 337 + c.day == YearLength(a) by {
      assert y == 400 * era + a;
      ShiftByEras(era, a);
    }
    NextYearOfEra(y);
  }

  /** The day number of any date, valid or not, is its era, year of era and day of year put together. */
  lemma DayNumberSplit(c: Civil)
    ensures var y := if c.month <= 2 then c.year - 1 else c.year;
      EraOf(c) == y / 400 && YearOfEraOf(c) == y % 400
    ensures DaysFromCivil(c) + EpochShift == EraOf(c) * DaysPerEra + YearStart(YearOfEraOf(c)) + DayOfYearOf(c)
  {
  }

  /** The March-based year after `y` starts where `y` ends. */
  lemma NextYearOfEra(y: int)
    ensures (y / 400) * DaysPerEra + YearStart(y % 400) + YearLength(y % 400)
         == ((y + 1) / 400) * DaysPerEra + YearStart((y + 1) % 400)
  {
    var era, a := y / 400, y % 400;
    assert y + 1 == 400 * era + (a + 1);
    YearStartStep(a);
    if a < 399 {
      ShiftByEras(era, a + 1);
      assert (y + 1) / 400 == era && (y + 1) % 400 == a + 1;
    } else {
      assert y + 1 == 400 * (era + 1) + 0;
      ShiftByEras(era + 1, 0);
      assert (y + 1) / 400 == era + 1 && (y + 1) % 400 == 0;
      assert (era + 1) * DaysPerEra == era * DaysPerEra + DaysPerEra;
    }
  }
}

=== FILE: coercion.dfy ===
/**
 * Cell-level type coercion: `pd.to_numeric(..., errors='coerce')`,
 * `pd.to_datetime(..., errors='coerce')` and `astype(str)`.  How a string
 * (or any value of the wrong type) is parsed is the library's business and
 * enters the model as the `Library` parameter; what the model fixes is
 * which cells reach the parser, what an unparseable value becomes, and
 * that a value already of the target type passes through unchanged.
 */
module Coercion {
  import opened Tables

  /** What the library makes of one value: a result, "unparseable" (coerced to missing), or an exception. */
  datatype Parse<T> = Parsed(value: T) | Unparseable | Raises

  datatype Library = Library(
    parseNumber: Value -> Parse<real>,        // pd.to_numeric on a non-numeric value
    parseDatetime: Value -> Parse<Timestamp>, // pd.to_datetime on a value that is neither datetime nor date
    render: Value -> string)                  // str() of a present non-text value

  /** Does `pd.to_numeric` raise on this cell? */
  predicate NumericRaises(lib: Library, x: Cell) {
    x.Some? && !x.value.Num? && lib.parseNumber(x.value).Raises?
  }

  /** The cell after `pd.to_numeric(errors='coerce')` (meaningful when it does not raise). */
  function ToNumeric(lib: Library, x: Cell): (y: Cell)
    ensures y.None? || y.value.Num?
    ensures x.None? ==> y.None?
    ensures x.Some? && x.value.Num? ==> y == x
    ensures x.Some? && !x.value.Num? && !lib.parseNumber(x.value).Parsed? ==> y.None?
    ensures y.Some? ==> x.Some? && (x.value.Num? || lib.parseNumber(x.value) == Parsed(y.value.x))
    ensures x.Some? && !x.value.Num? && lib.parseNumber(x.value).Parsed? ==> y == Some(Num(lib.parseNumber(x.value).value))
  {
    match x
    case None => None
    case Some(Num(_)) => x
    case Some(v) =>
      match lib.parseNumber(v)
      case Parsed(r) => Some(Num(r))
      case _ => None
  }

  /** Does `pd.to_datetime` raise on this cell? */
  predicate DatetimeRaises(lib: Library, x: Cell) {
    x.Some? && !x.value.Time? && !x.value.Date? && lib.parseDatetime(x.value).Raises?
  }

  /** The cell after `pd.to_datetime(errors='coerce')`: a date becomes its midnight. */
  function ToDatetime(lib: Library, x: Cell): (y: Cell)
    ensures y.None? || y.value.Time?
    ensures x.None? ==> y.None?
    ensures x.Some? && x.value.Time? ==> y == x
    ensures x.Some? && x.value.Date? ==> y == Some(Time(Midnight(x.value.day)))
    ensures x.Some? && !x.value.Time? && !x.value.Date? && !lib.parseDatetime(x.value).Parsed? ==> y.None?
    ensures y.Some? ==> x.Some? && (x.value.Time? || x.value.Date? || lib.parseDatetime(x.value) == Parsed(y.value.t))
    ensures x.Some? && !x.value.Time? && !x.value.Date? && lib.parseDatetime(x.value).Parsed? ==>
      y == Some(Time(lib.parseDatetime(x.value).value))
  {
    match x
    case None => None
    case Some(Time(_)) => x
    case Some(Date(d)) => Some(Time(Midnight(d)))
    case Some(v) =>
      match lib.parseDatetime(v)
      case Parsed(t) => Some(Time(t))
      case _ => None
  }

  /** `astype(str)`: a missing value becomes the text "nan". */
  function AsStr(lib: Library, x: Cell): (s: string)
    ensures x.None? ==> s == "nan"
    ensures x.Some? && x.value.Text? ==> s == x.value.s
  {
    match x
    case None => "nan"
    case Some(Text(s)) => s
    case Some(v) => lib.render(v)
  }

  /** A coerced numeric cell is a fixed point: coercing again changes nothing and cannot raise. */
  lemma ToNumericIdempotent(lib: Library, x: Cell)
    ensures !NumericRaises(lib, ToNumeric(lib, x))
    ensures ToNumeric(lib, ToNumeric(lib, x)) == ToNumeric(lib, x)
  {
  }

  lemma ToDatetimeIdempotent(lib: Library, x: Cell)
    ensures !DatetimeRaises(lib, ToDatetime(lib, x))
    ensures ToDatetime(lib, ToDatetime(lib, x)) == ToDatetime(lib, x)
  {
  }
}

=== FILE: dedup.dfy ===
/**
 * `DataFrame.drop_duplicates(subset=key)` with the default `keep='first'`:
 * a row survives iff no earlier row has the same key cell, and survivors
 * keep their relative order.  A missing key is one key value like any
 * other, so at most one row with a missing key survives.
 */
module Dedup {
  import opened Tables

  /** The distinct key cells of `rows`. */
  function Keys(rows: seq<Row>, c: string): set<Cell> {
    set i | 0 <= i < |rows| :: Get(rows[i], c)
  }

  predicate DistinctKeys(rows: seq<Row>, c: string) {
    forall i, j :: 0 <= i < j < |rows| ==> Get(rows[i], c) != Get(rows[j], c)
  }

  /** Row `i` is the first row carrying its key. */
  predicate IsFirst(rows: seq<Row>, c: string, i: int)
    requires 0 <= i < |rows|
  {
    forall j :: 0 <= j < i ==> Get(rows[j], c) != Get(rows[i], c)
  }

  lemma KeysSnoc(rows: seq<Row>, c: string, x: Row)
    ensures Keys(rows + [x], c) == Keys(rows, c) + {Get(x, c)}
  {
    var s := rows + [x];
    forall k | k in Keys(s, c)
      ensures k in Keys(rows, c) + {Get(x, c)}
    {
      var i :| 0 <= i < |s| && Get(s[i], c) == k;
      if i < |rows| {
        assert Get(rows[i], c) == k;
      }
    }
    forall k | k in Keys(rows, c)
      ensures k in Keys(s, c)
    {
      var i :| 0 <= i < |rows| && Get(rows[i], c) == k;
      assert s[i] == rows[i];
    }
    assert Get(s[|rows|], c) == Get(x, c);
  }

  lemma KeysOfFront(rows: seq<Row>, c: string)
    requires |rows| > 0
    ensures Keys(rows, c) == Keys(rows[..|rows| - 1], c) + {Get(rows[|rows| - 1], c)}
  {
    var n := |rows| - 1;
    assert rows == rows[..n] + [rows[n]];
    KeysSnoc(rows[..n], c, rows[n]);
  }

  /** Row `n` is a first occurrence iff its key is new among the rows before it. */
  lemma IsFirstIffNewKey(rows: seq<Row>, c: string, n: int)
    requires 0 <= n < |rows|
    ensures IsFirst(rows, c, n) <==> Get(rows[n], c) !in Keys(rows[..n], c)
  {
    if !IsFirst(rows, c, n) {
      var j :| 0 <= j < n && Get(rows[j], c) == Get(rows[n], c);
      assert rows[..n][j] == rows[j];
    }
  }

  /** `drop_duplicates(subset=c)`, keeping the first row of each key. */
  function DropDuplicates(rows: seq<Row>, c: string): (r: seq<Row>)
    ensures |r| <= |rows|
    ensures DistinctKeys(r, c)
    ensures Keys(r, c) == Keys(rows, c)
    decreases |rows|
  {
    if |rows| == 0 then []
    else
      var n := |rows| - 1;
      var front := DropDuplicates(rows[..n], c);
      KeysOfFront(rows, c);
      if Get(rows[n], c) in Keys(front, c) then front
      else
        KeysSnoc(front, c, rows[n]);
        front + [rows[n]]
  }

  /** The input positions of the rows `DropDuplicates` keeps, in order. */
  function KeptIndices(rows: seq<Row>, c: string): seq<int>
    decreases |rows|
  {
    if |rows| == 0 then []
    else
      var n := |rows| - 1;
      if IsFirst(rows, c, n) then KeptIndices(rows[..n], c) + [n]
      else KeptIndices(rows[..n], c)
  }

  lemma IsFirstOfPrefix(rows: seq<Row>, c: string, n: int, i: int)
    requires 0 <= i < n <= |rows|
    ensures IsFirst(rows[..n], c, i) <==> IsFirst(rows, c, i)
  {
    assert forall j :: 0 <= j <= i ==> rows[..n][j] == rows[j];
  }

  lemma {:induction false} KeptIndicesIncreasing(rows: seq<Row>, c: string)
    ensures forall k :: 0 <= k < |KeptIndices(rows, c)| ==> 0 <= KeptIndices(rows, c)[k] < |rows|
    ensures forall k, l :: 0 <= k < l < |KeptIndices(rows, c)| ==> KeptIndices(rows, c)[k] < KeptIndices(rows, c)[l]
    decreases |rows|
  {
    if |rows| > 0 {
      var n := |rows| - 1;
      var prev := KeptIndices(rows[..n], c);
      KeptIndicesIncreasing(rows[..n], c);
      assert forall k :: 0 <= k < |prev| ==> 0 <= prev[k] < |rows[..n]|;
      if IsFirst(rows, c, n) {
        var idx := prev + [n];
        assert forall k :: 0 <= k < |prev| ==> idx[k] == prev[k] < n;
        assert idx[|prev|] == n;
      }
    }
  }

  lemma {:induction false} KeptIndicesAreFirst(rows: seq<Row>, c: string)
    ensures forall i :: 0 <= i < |rows| ==> (i in KeptIndices(rows, c) <==> IsFirst(rows, c, i))
    decreases |rows|
  {
    if |rows| > 0 {
      var n := |rows| - 1;
      var front := rows[..n];
      KeptIndicesAreFirst(front, c);
      KeptIndicesIncreasing(front, c);
      var prev := KeptIndices(front, c);
      assert KeptIndices(rows, c) == if IsFirst(rows, c, n) then prev + [n] else prev;
      assert forall k :: 0 <= k < |prev| ==> 0 <= prev[k] < |front|;
      assert n !in prev;
      forall i | 0 <= i < n
        ensures i in prev <==> IsFirst(rows, c, i)
      {
        IsFirstOfPrefix(rows, c, n, i);
      }
    }
  }

  /** The kept positions are increasing and are exactly the first occurrences. */
  lemma KeptIndicesAreFirstOccurrences(rows: seq<Row>, c: string)
    ensures var idx := KeptIndices(rows, c);
            && (forall k :: 0 <= k < |idx| ==> 0 <= idx[k] < |rows|)
            && (forall k, l :: 0 <= k < l < |idx| ==> idx[k] < idx[l])
            && (forall i :: 0 <= i < |rows| ==> (i in idx <==> IsFirst(rows, c, i)))
  {
    KeptIndicesIncreasing(rows, c);
    KeptIndicesAreFirst(rows, c);
  }

  /** Output row k is input row `KeptIndices(rows, c)[k]`. */
  lemma {:induction false} DropDuplicatesSelectsKept(rows: seq<Row>, c: string)
    ensures var r := DropDuplicates(rows, c);
            var idx := KeptIndices(rows, c);
            && |idx| == |r|
            && (forall k :: 0 <= k < |idx| ==> 0 <= idx[k] < |rows| && r[k] == rows[idx[k]])
    decreases |rows|
  {
    KeptIndicesAreFirstOccurrences(rows, c);
    if |rows| > 0 {
      var n := |rows| - 1;
      DropDuplicatesSelectsKept(rows[..n], c);
      IsFirstIffNewKey(rows, c, n);
      assert forall k :: 0 <= k < n ==> rows[..n][k] == rows[k];
    }
  }

  /**
   * The output of `DropDuplicates` is the subsequence of the input made of
   * exactly the first occurrences of each key, in input order.
   */
  lemma DropDuplicatesKeepsFirst(rows: seq<Row>, c: string)
    ensures var r := DropDuplicates(rows, c);
            var idx := KeptIndices(rows, c);
            && |idx| == |r|
            && (forall k :: 0 <= k < |idx| ==> 0 <= idx[k] < |rows| && r[k] == rows[idx[k]])
            && (forall k, l :: 0 <= k < l < |idx| ==> idx[k] < idx[l])
            && (forall i :: 0 <= i < |rows| ==> (i in idx <==> IsFirst(rows, c, i)))
  {
    KeptIndicesAreFirstOccurrences(rows, c);
    DropDuplicatesSelectsKept(rows, c);
  }

  lemma {:induction false} DistinctKeysCardinality(rows: seq<Row>, c: string)
    requires DistinctKeys(rows, c)
    ensures |Keys(rows, c)| == |rows|
    decreases |rows|
  {
    if |rows| > 0 {
      var n := |rows| - 1;
      DistinctKeysCardinality(rows[..n], c);
      KeysOfFront(rows, c);
      IsFirstIffNewKey(rows, c, n);
    }
  }

  /** `drop_duplicates` leaves one row per distinct key; the rest are the dropped duplicates. */
  lemma DropDuplicatesCount(rows: seq<Row>, c: string)
    ensures |DropDuplicates(rows, c)| == |Keys(rows, c)|
    ensures |rows| - |DropDuplicates(rows, c)| == |rows| - |Keys(rows, c)|
  {
    DistinctKeysCardinality(DropDuplicates(rows, c), c);
  }

  /** Rows whose keys are already distinct pass through untouched. */
  lemma {:induction false} DropDuplicatesOfDistinct(rows: seq<Row>, c: string)
    requires DistinctKeys(rows, c)
    ensures DropDuplicates(rows, c) == rows
    decreases |rows|
  {
    if |rows| > 0 {
      var n := |rows| - 1;
      DropDuplicatesOfDistinct(rows[..n], c);
      IsFirstIffNewKey(rows, c, n);
      assert rows == rows[..n] + [rows[n]];
    }
  }

  lemma DropDuplicatesIdempotent(rows: seq<Row>, c: string)
    ensures DropDuplicates(DropDuplicates(rows, c), c) == DropDuplicates(rows, c)
  {
    DropDuplicatesOfDistinct(DropDuplicates(rows, c), c);
  }

  lemma KeysOfMapRows(rows: seq<Row>, c: string, f: Row -> Row)
    requires KeepsColumn(f, c)
    ensures Keys(MapRows(rows, f), c) == Keys(rows, c)
  {
    var m := MapRows(rows, f);
    forall k | k in Keys(rows, c)
      ensures k in Keys(m, c)
    {
      var i :| 0 <= i < |rows| && Get(rows[i], c) == k;
      assert Get(m[i], c) == k;
    }
  }

  lemma MapRowsSnoc(rows: seq<Row>, x: Row, f: Row -> Row)
    ensures MapRows(rows + [x], f) == MapRows(rows, f) + [f(x)]
  {
    var l, r := MapRows(rows + [x], f), MapRows(rows, f) + [f(x)];
    assert |l| == |r|;
    forall i | 0 <= i < |l|
      ensures l[i] == r[i]
    {
      if i < |rows| {
        assert (rows + [x])[i] == rows[i];
      }
    }
  }

  lemma MapRowsPrefix(rows: seq<Row>, n: int, f: Row -> Row)
    requires 0 <= n <= |rows|
    ensures MapRows(rows, f)[..n] == MapRows(rows[..n], f)
  {
    var l, r := MapRows(rows, f)[..n], MapRows(rows[..n], f);
    assert |l| == |r|;
    forall i | 0 <= i < n
      ensures l[i] == r[i]
    {
      assert rows[..n][i] == rows[i];
    }
  }

  /**
   * Deduplicating after a row transformation that does not touch the key
   * is the same as transforming the deduplicated rows.
   */
  lemma {:induction false} DropDuplicatesMapRows(rows: seq<Row>, c: string, f: Row -> Row)
    requires KeepsColumn(f, c)
    ensures DropDuplicates(MapRows(rows, f), c) == MapRows(DropDuplicates(rows, c), f)
    decreases |rows|
  {
    if |rows| > 0 {
      var n := |rows| - 1;
      var mapped := MapRows(rows, f);
      MapRowsPrefix(rows, n, f);
      DropDuplicatesMapRows(rows[..n], c, f);
      var front := DropDuplicates(rows[..n], c);
      KeysOfMapRows(front, c, f);
      assert mapped[n] == f(rows[n]);
      assert Get(mapped[n], c) == Get(rows[n], c);
      MapRowsSnoc(front, rows[n], f);
    }
  }
}

=== FILE: jobs.dfy ===
/**
 * The shape shared by the staging and warehouse phases: a fixed list of
 * table-building calls, each reading one input table by name and storing its
 * result under an output name, evaluated in order inside one dictionary
 * literal, so the first missing input or raised exception ends the phase.
 */
module Jobs {
  import opened Tables

  /** One call of a phase: read `input`, build with `how`, store under `output`. */
  datatype Job<S> = Job(input: string, output: string, how: S)

  /** The names a list of jobs writes. */
  function Outputs<S>(jobs: seq<Job<S>>): set<string> {
    set j | 0 <= j < |jobs| :: jobs[j].output
  }

  predicate DistinctOutputs<S>(jobs: seq<Job<S>>) {
    forall i, j :: 0 <= i < j < |jobs| ==> jobs[i].output != jobs[j].output
  }

  /** Reading the job's input and building from it succeeds. */
  predicate JobOk<S>(run: (S, Table) -> Result<Table>, src: map<string, Table>, job: Job<S>) {
    job.input in src && run(job.how, src[job.input]).Ok?
  }

  /** The exception a failing job raises: the missing input's name, or the builder's own. */
  function JobError<S>(run: (S, Table) -> Result<Table>, src: map<string, Table>, job: Job<S>): Error
    requires !JobOk(run, src, job)
  {
    if job.input !in src then KeyError(job.input) else run(job.how, src[job.input]).error
  }

  /**
   * Runs the jobs in order.  On success every output name holds its job's
   * table; otherwise the error is that of the first failing job, every job
   * before it having succeeded.
   */
  function RunJobs<S>(run: (S, Table) -> Result<Table>, src: map<string, Table>, jobs: seq<Job<S>>)
    : (r: Result<map<string, Table>>)
    requires DistinctOutputs(jobs)
    ensures r.Ok? <==> forall j :: 0 <= j < |jobs| ==> JobOk(run, src, jobs[j])
    ensures r.Ok? ==> r.value.Keys == Outputs(jobs)
    ensures r.Ok? ==> forall j :: 0 <= j < |jobs| ==>
      jobs[j].input in src && r.value[jobs[j].output] == run(jobs[j].how, src[jobs[j].input]).value
    ensures r.Err? ==>
      exists j :: (0 <= j < |jobs| && !JobOk(run, src, jobs[j])
        && (forall i :: 0 <= i < j ==> JobOk(run, src, jobs[i]))
        && r.error == JobError(run, src, jobs[j]))
    decreases |jobs|
  {
    if |jobs| == 0 then Ok(map[])
    else if !JobOk(run, src, jobs[0]) then Err(JobError(run, src, jobs[0]))
    else
      var rest := RunJobs(run, src, jobs[1..]);
      assert forall j :: 1 <= j < |jobs| ==> jobs[1..][j - 1] == jobs[j];
      if rest.Err? then
        var j :| 0 <= j < |jobs| - 1 && !JobOk(run, src, jobs[1..][j])
          && (forall i :: 0 <= i < j ==> JobOk(run, src, jobs[1..][i]))
          && rest.error == JobError(run, src, jobs[1..][j]);
        assert !JobOk(run, src, jobs[j + 1]);
        rest
      else
        assert Outputs(jobs) == {jobs[0].output} + Outputs(jobs[1..]);
        Ok(rest.value[jobs[0].output := run(jobs[0].how, src[jobs[0].input]).value])
  }

  /** When the first job fails, its error is the phase's error. */
  lemma FirstJobFails<S>(run: (S, Table) -> Result<Table>, src: map<string, Table>, jobs: seq<Job<S>>)
    requires DistinctOutputs(jobs)
    requires |jobs| > 0 && !JobOk(run, src, jobs[0])
    ensures RunJobs(run, src, jobs) == Err(JobError(run, src, jobs[0]))
  {
    var r := RunJobs(run, src, jobs);
    var j :| 0 <= j < |jobs| && !JobOk(run, src, jobs[j])
      && (forall i :: 0 <= i < j ==> JobOk(run, src, jobs[i]))
      && r.error == JobError(run, src, jobs[j]);
    assert j == 0;
  }

  /** The table a successful phase stores under job `j`'s output name. */
  lemma JobOutput<S>(run: (S, Table) -> Result<Table>, src: map<string, Table>, jobs: seq<Job<S>>, j: int)
    requires DistinctOutputs(jobs)
    requires RunJobs(run, src, jobs).Ok? && 0 <= j < |jobs|
    ensures jobs[j].input in src && run(jobs[j].how, src[jobs[j].input]).Ok?
    ensures RunJobs(run, src, jobs).value[jobs[j].output] == run(jobs[j].how, src[jobs[j].input]).value
  {
    assert JobOk(run, src, jobs[j]);
  }
}

=== FILE: staging.dfy ===
/**
 * The staging transformer (src/transform_staging.py).  Every `stage_*`
 * function has the same shape: read the primary-key column (to count and
 * log missing keys, never to filter them), coerce or normalise a fixed list
 * of columns in place, then `drop_duplicates(subset=key)`.  The shape is
 * modelled once as `Stage` over a `StageSpec`; the six stage functions are
 * its instances.
 */
module Staging {
  import opened Tables
  import Strings
  import opened Coercion
  import opened Dedup
  import opened Jobs

  /** Text normalisation: `.astype(str).str.strip()` followed by an optional case change. */
  datatype Casing = StripOnly | StripLower | StripTitle

  /** One in-place column assignment of a stage function. */
  datatype Step =
    | ToDatetimeStep(col: string)                 // df[col] = pd.to_datetime(df[col], errors='coerce')
    | ToNumericStep(col: string, ifPresent: bool) // df[col] = pd.to_numeric(...), guarded by `if col in df.columns` when ifPresent
    | NormalizeStep(col: string, casing: Casing)  // df[col] = df[col].astype(str).str.strip()[.lower()|.title()]

  datatype StageSpec = StageSpec(key: string, steps: seq<Step>)

  function Normalize(casing: Casing, s: string): string {
    match casing
    case StripOnly => Strings.Strip(s)
    case StripLower => Strings.Lower(Strings.Strip(s))
    case StripTitle => Strings.Title(Strings.Strip(s))
  }

  /** The shape a normalised string has. */
  predicate NormalText(casing: Casing, s: string) {
    && Strings.Stripped(s)
    && (casing == StripLower ==> Strings.IsLowered(s))
    && (casing == StripTitle ==> Strings.IsTitled(s))
  }

  lemma NormalizeShape(casing: Casing, s: string)
    ensures NormalText(casing, Normalize(casing, s))
    ensures NormalText(casing, s) ==> Normalize(casing, s) == s
  {
    var t := Strings.Strip(s);
    Strings.CaseKeepsStripped(t);
    Strings.TitleShape(t);
    if NormalText(casing, s) {
      Strings.StripOfStripped(s);
      if casing == StripLower {
        Strings.LowerOfLowered(s);
      } else if casing == StripTitle {
        Strings.TitleOfTitled(s);
      }
    }
  }

  lemma NormalizeIdempotent(casing: Casing, s: string)
    ensures Normalize(casing, Normalize(casing, s)) == Normalize(casing, s)
  {
    NormalizeShape(casing, s);
    NormalizeShape(casing, Normalize(casing, s));
  }

  /** The new value of a cell under a step (meaningful when the step does not raise on it). */
  function FixCell(lib: Library, step: Step, x: Cell): Cell {
    match step
    case ToDatetimeStep(_) => ToDatetime(lib, x)
    case ToNumericStep(_, _) => ToNumeric(lib, x)
    case NormalizeStep(_, casing) => Some(Text(Normalize(casing, AsStr(lib, x))))
  }

  /** Does the library raise while the step converts this cell? */
  predicate CellRaises(lib: Library, step: Step, x: Cell) {
    match step
    case ToDatetimeStep(_) => DatetimeRaises(lib, x)
    case ToNumericStep(_, _) => NumericRaises(lib, x)
    case NormalizeStep(_, _) => false
  }

  predicate TimeOrMissing(x: Cell) {
    x.None? || x.value.Time?
  }

  predicate NumOrMissing(x: Cell) {
    x.None? || x.value.Num?
  }

  predicate TextOf(casing: Casing, x: Cell) {
    x.Some? && x.value.Text? && NormalText(casing, x.value.s)
  }

  /** The form every cell of a step's column has once the step has run. */
  predicate NormalCell(step: Step, x: Cell) {
    match step
    case ToDatetimeStep(_) => TimeOrMissing(x)
    case ToNumericStep(_, _) => NumOrMissing(x)
    case NormalizeStep(_, casing) => TextOf(casing, x)
  }

  lemma FixCellNormal(lib: Library, step: Step, x: Cell)
    ensures NormalCell(step, FixCell(lib, step, x))
    ensures NormalCell(step, x) ==> FixCell(lib, step, x) == x && !CellRaises(lib, step, x)
  {
    if step.NormalizeStep? {
      NormalizeShape(step.casing, AsStr(lib, x));
    }
  }

  /** A step whose column is absent is skipped only when it is guarded by `if col in df.columns`. */
  predicate Optional(step: Step) {
    step.ToNumericStep? && step.ifPresent
  }

  /** The row after one step, for a table with columns `cols`. */
  function FixRowStep(lib: Library, cols: seq<string>, step: Step, r: Row): Row {
    if step.col in cols then r[step.col := FixCell(lib, step, Get(r, step.col))] else r
  }

  /** The row after all steps of a stage. */
  function FixRow(lib: Library, cols: seq<string>, steps: seq<Step>, r: Row): Row
    decreases |steps|
  {
    if |steps| == 0 then r
    else FixRow(lib, cols, steps[1..], FixRowStep(lib, cols, steps[0], r))
  }

  /** `FixRow` as a row transformer. */
  function Fixer(lib: Library, cols: seq<string>, steps: seq<Step>): Row -> Row {
    r => FixRow(lib, cols, steps, r)
  }

  /** One column assignment over the whole table; a raising cell raises for the column. */
  function ApplyStep(lib: Library, step: Step, t: Table): Result<Table> {
    if step.col !in t.cols then
      (if Optional(step) then Ok(t) else Err(KeyError(step.col)))
    else if exists i :: 0 <= i < |t.rows| && CellRaises(lib, step, Get(t.rows[i], step.col)) then
      Err(CoercionError(step.col))
    else
      Ok(Table(t.cols, MapRows(t.rows, r => FixRowStep(lib, t.cols, step, r))))
  }

  function ApplySteps(lib: Library, steps: seq<Step>, t: Table): Result<Table>
    decreases |steps|
  {
    if |steps| == 0 then Ok(t)
    else
      var t1 :- ApplyStep(lib, steps[0], t);
      ApplySteps(lib, steps[1..], t1)
  }

  /** A stage: key column read first, then the steps in order, then deduplication by key. */
  function Stage(spec: StageSpec, lib: Library, t: Table): Result<Table> {
    if spec.key !in t.cols then Err(KeyError(spec.key))
    else
      var u :- ApplySteps(lib, spec.steps, t);
      Ok(Table(u.cols, DropDuplicates(u.rows, spec.key)))
  }

  /** The six stage functions convert distinct columns, none of them the key. */
  predicate ValidSpec(spec: StageSpec) {
    && (forall j :: 0 <= j < |spec.steps| ==> spec.steps[j].col != spec.key)
    && (forall i, j :: 0 <= i < j < |spec.steps| ==> spec.steps[i].col != spec.steps[j].col)
  }

  /** A step can run: its column exists unless it is guarded, and no cell of an existing column makes the library raise. */
  predicate StepPossible(lib: Library, t: Table, step: Step) {
    && (!Optional(step) ==> step.col in t.cols)
    && (step.col in t.cols ==> forall i :: 0 <= i < |t.rows| ==> !CellRaises(lib, step, Get(t.rows[i], step.col)))
  }

  /** When a stage succeeds: the key exists and every step can run. */
  predicate StageSucceeds(spec: StageSpec, lib: Library, t: Table) {
    && spec.key in t.cols
    && (forall j :: 0 <= j < |spec.steps| ==> StepPossible(lib, t, spec.steps[j]))
  }

  /** For a short list of steps, "every step can run" spelled out. */
  lemma EveryStep(lib: Library, t: Table, steps: seq<Step>)
    requires 2 <= |steps| <= 4
    ensures (forall j :: 0 <= j < |steps| ==> StepPossible(lib, t, steps[j])) <==>
      && StepPossible(lib, t, steps[0]) && StepPossible(lib, t, steps[1])
      && (|steps| > 2 ==> StepPossible(lib, t, steps[2]))
      && (|steps| > 3 ==> StepPossible(lib, t, steps[3]))
  {
  }

  // ---------------------------------------------------------------------
  // The effect of the steps on one row

  lemma {:induction false} FixRowOtherColumn(lib: Library, cols: seq<string>, steps: seq<Step>, r: Row, c: string)
    requires forall j :: 0 <= j < |steps| ==> steps[j].col != c
    ensures Get(FixRow(lib, cols, steps, r), c) == Get(r, c)
    decreases |steps|
  {
    if |steps| > 0 {
      FixRowOtherColumn(lib, cols, steps[1..], FixRowStep(lib, cols, steps[0], r), c);
    }
  }

  lemma {:induction false} FixRowStepColumn(lib: Library, cols: seq<string>, steps: seq<Step>, r: Row, j: int)
    requires 0 <= j < |steps| && steps[j].col in cols
    requires forall i, k :: 0 <= i < k < |steps| ==> steps[i].col != steps[k].col
    ensures Get(FixRow(lib, cols, steps, r), steps[j].col) == FixCell(lib, steps[j], Get(r, steps[j].col))
    decreases |steps|
  {
    var r1 := FixRowStep(lib, cols, steps[0], r);
    if j == 0 {
      FixRowOtherColumn(lib, cols, steps[1..], r1, steps[0].col);
    } else {
      FixRowStepColumn(lib, cols, steps[1..], r1, j - 1);
      assert Get(r1, steps[j].col) == Get(r, steps[j].col);
    }
  }

  /** The columns a stage writes, given the table's columns. */
  function WrittenColumns(cols: seq<string>, steps: seq<Step>): set<string> {
    set j | 0 <= j < |steps| && steps[j].col in cols :: steps[j].col
  }

  lemma {:induction false} FixRowKeys(lib: Library, cols: seq<string>, steps: seq<Step>, r: Row)
    ensures FixRow(lib, cols, steps, r).Keys == r.Keys + WrittenColumns(cols, steps)
    decreases |steps|
  {
    if |steps| > 0 {
      var r1 := FixRowStep(lib, cols, steps[0], r);
      FixRowKeys(lib, cols, steps[1..], r1);
      assert WrittenColumns(cols, steps) ==
        WrittenColumns(cols, steps[1..]) + (if steps[0].col in cols then {steps[0].col} else {}) by {
        forall c | c in WrittenColumns(cols, steps)
          ensures c in WrittenColumns(cols, steps[1..]) + (if steps[0].col in cols then {steps[0].col} else {})
        {
          var j :| 0 <= j < |steps| && steps[j].col in cols && steps[j].col == c;
          if j > 0 {
            assert steps[1..][j - 1] == steps[j];
          }
        }
        forall c | c in WrittenColumns(cols, steps[1..])
          ensures c in WrittenColumns(cols, steps)
        {
          var j :| 0 <= j < |steps[1..]| && steps[1..][j].col in cols && steps[1..][j].col == c;
          assert steps[j + 1] == steps[1..][j];
        }
      }
    }
  }

  lemma {:induction false} FixRowNotInCols(lib: Library, cols: seq<string>, steps: seq<Step>, r: Row, c: string)
    requires c !in cols
    ensures Get(FixRow(lib, cols, steps, r), c) == Get(r, c)
    decreases |steps|
  {
    if |steps| > 0 {
      FixRowNotInCols(lib, cols, steps[1..], FixRowStep(lib, cols, steps[0], r), c);
    }
  }

  /** Every cell of a converted row: a step's column holds the step's conversion of the old cell, any other column is unchanged. */
  lemma FixRowCells(lib: Library, cols: seq<string>, steps: seq<Step>, r: Row)
    requires forall i, k :: 0 <= i < k < |steps| ==> steps[i].col != steps[k].col
    ensures forall j :: 0 <= j < |steps| && steps[j].col in cols ==>
      Get(FixRow(lib, cols, steps, r), steps[j].col) == FixCell(lib, steps[j], Get(r, steps[j].col))
    ensures forall c :: c !in WrittenColumns(cols, steps) ==> Get(FixRow(lib, cols, steps, r), c) == Get(r, c)
  {
    forall j | 0 <= j < |steps| && steps[j].col in cols
      ensures Get(FixRow(lib, cols, steps, r), steps[j].col) == FixCell(lib, steps[j], Get(r, steps[j].col))
    {
      FixRowStepColumn(lib, cols, steps, r, j);
    }
    forall c | c !in WrittenColumns(cols, steps)
      ensures Get(FixRow(lib, cols, steps, r), c) == Get(r, c)
    {
      if c in cols {
        assert forall j :: 0 <= j < |steps| ==> steps[j].col != c;
        FixRowOtherColumn(lib, cols, steps, r, c);
      } else {
        FixRowNotInCols(lib, cols, steps, r, c);
      }
    }
  }

  /** Running the steps twice on a row is running them once. */
  lemma FixRowIdempotent(lib: Library, cols: seq<string>, steps: seq<Step>, r: Row)
    requires forall i, k :: 0 <= i < k < |steps| ==> steps[i].col != steps[k].col
    ensures FixRow(lib, cols, steps, FixRow(lib, cols, steps, r)) == FixRow(lib, cols, steps, r)
  {
    var r1 := FixRow(lib, cols, steps, r);
    var r2 := FixRow(lib, cols, steps, r1);
    FixRowKeys(lib, cols, steps, r);
    FixRowKeys(lib, cols, steps, r1);
    assert r2.Keys == r1.Keys;
    forall c | c in r2
      ensures r2[c] == r1[c]
    {
      SameCellTwice(lib, cols, steps, r, c);
      assert Get(r2, c) == r2[c] && Get(r1, c) == r1[c];
    }
  }

  lemma SameCellTwice(lib: Library, cols: seq<string>, steps: seq<Step>, r: Row, c: string)
    requires forall i, k :: 0 <= i < k < |steps| ==> steps[i].col != steps[k].col
    ensures var r1 := FixRow(lib, cols, steps, r);
            Get(FixRow(lib, cols, steps, r1), c) == Get(r1, c)
  {
    var r1 := FixRow(lib, cols, steps, r);
    if j :| 0 <= j < |steps| && steps[j].col == c && c in cols {
      FixRowStepColumn(lib, cols, steps, r, j);
      FixRowStepColumn(lib, cols, steps, r1, j);
      FixCellNormal(lib, steps[j], Get(r, c));
      FixCellNormal(lib, steps[j], Get(r1, c));
    } else if c in cols {
      FixRowOtherColumn(lib, cols, steps, r, c);
      FixRowOtherColumn(lib, cols, steps, r1, c);
    } else {
      FixRowNotInCols(lib, cols, steps, r, c);
      FixRowNotInCols(lib, cols, steps, r1, c);
    }
  }

  // ---------------------------------------------------------------------
  // The effect of the steps on a table

  /** One step succeeds exactly when it can run, and then converts every row in place. */
  lemma ApplyStepResult(lib: Library, step: Step, t: Table)
    ensures ApplyStep(lib, step, t).Ok? <==> StepPossible(lib, t, step)
    ensures ApplyStep(lib, step, t).Ok? ==>
      var t1 := ApplyStep(lib, step, t).value;
      && t1.cols == t.cols && |t1.rows| == |t.rows|
      && forall i :: 0 <= i < |t.rows| ==> t1.rows[i] == FixRowStep(lib, t.cols, step, t.rows[i])
  {
  }

  /** A step leaves the cells of every other column as they were. */
  lemma FixRowStepOtherColumn(lib: Library, cols: seq<string>, step: Step, r: Row, c: string)
    requires c != step.col
    ensures Get(FixRowStep(lib, cols, step, r), c) == Get(r, c)
  {
  }

  lemma {:induction false} ApplyStepsResult(lib: Library, steps: seq<Step>, t: Table)
    requires forall i, k :: 0 <= i < k < |steps| ==> steps[i].col != steps[k].col
    ensures ApplySteps(lib, steps, t).Ok? <==>
      && (forall j :: 0 <= j < |steps| && !Optional(steps[j]) ==> steps[j].col in t.cols)
      && (forall j, i :: 0 <= j < |steps| && steps[j].col in t.cols && 0 <= i < |t.rows| ==>
            !CellRaises(lib, steps[j], Get(t.rows[i], steps[j].col)))
    ensures ApplySteps(lib, steps, t).Ok? ==>
      ApplySteps(lib, steps, t).value == Table(t.cols, MapRows(t.rows, Fixer(lib, t.cols, steps)))
    decreases |steps|
  {
    if |steps| > 0 {
      var step := steps[0];
      var rest := steps[1..];
      ApplyStepResult(lib, step, t);
      assert forall j :: 1 <= j < |steps| ==> steps[j] == rest[j - 1];
      if ApplyStep(lib, step, t).Ok? {
        var t1 := ApplyStep(lib, step, t).value;
        ApplyStepsResult(lib, rest, t1);
        // the later steps see the original cells of their columns
        forall j, i | 0 <= j < |rest| && 0 <= i < |t.rows|
          ensures Get(t1.rows[i], rest[j].col) == Get(t.rows[i], rest[j].col)
        {
          assert rest[j] == steps[j + 1];
          FixRowStepOtherColumn(lib, t.cols, step, t.rows[i], rest[j].col);
        }
        if ApplySteps(lib, steps, t).Ok? {
          assert MapRows(t1.rows, Fixer(lib, t.cols, rest)) == MapRows(t.rows, Fixer(lib, t.cols, steps));
        }
      }
    }
  }

  // ---------------------------------------------------------------------
  // Properties of a whole stage

  lemma FixerKeepsKey(spec: StageSpec, lib: Library, cols: seq<string>)
    requires ValidSpec(spec)
    ensures KeepsColumn(Fixer(lib, cols, spec.steps), spec.key)
  {
    forall r: Row
      ensures Get(Fixer(lib, cols, spec.steps)(r), spec.key) == Get(r, spec.key)
    {
      FixRowOtherColumn(lib, cols, spec.steps, r, spec.key);
    }
  }

  /**
   * A stage fails exactly when the key or an unguarded column is missing or
   * the library raises on a converted cell; otherwise its rows are the first
   * row of each key, converted.
   */
  lemma StageResult(spec: StageSpec, lib: Library, t: Table)
    requires ValidSpec(spec)
    ensures Stage(spec, lib, t).Ok? <==> StageSucceeds(spec, lib, t)
    ensures Stage(spec, lib, t).Ok? ==>
      Stage(spec, lib, t).value == Table(t.cols, MapRows(DropDuplicates(t.rows, spec.key), Fixer(lib, t.cols, spec.steps)))
  {
    ApplyStepsResult(lib, spec.steps, t);
    if Stage(spec, lib, t).Ok? {
      FixerKeepsKey(spec, lib, t.cols);
      DropDuplicatesMapRows(t.rows, spec.key, Fixer(lib, t.cols, spec.steps));
    }
  }

  /**
   * Staging output row k is input row `KeptIndices[k]`, the first input row
   * with its key, with the stage's columns converted; the keys are distinct,
   * every input key (a missing one included) survives, and exactly the
   * duplicates are dropped.
   */
  lemma StageRows(spec: StageSpec, lib: Library, t: Table)
    requires ValidSpec(spec)
    requires Stage(spec, lib, t).Ok?
    ensures var out := Stage(spec, lib, t).value;
            var idx := KeptIndices(t.rows, spec.key);
            && out.cols == t.cols
            && |out.rows| == |idx| == |Keys(t.rows, spec.key)| <= |t.rows|
            && (forall k :: 0 <= k < |idx| ==>
                  (0 <= idx[k] < |t.rows|
                   && IsFirst(t.rows, spec.key, idx[k])
                   && out.rows[k] == FixRow(lib, t.cols, spec.steps, t.rows[idx[k]])))
            && (forall k, j :: 0 <= k < |idx| && 0 <= j < |spec.steps| && spec.steps[j].col in t.cols ==>
                  Get(out.rows[k], spec.steps[j].col) == FixCell(lib, spec.steps[j], Get(t.rows[idx[k]], spec.steps[j].col)))
            && (forall k, c :: 0 <= k < |idx| && c !in WrittenColumns(t.cols, spec.steps) ==>
                  Get(out.rows[k], c) == Get(t.rows[idx[k]], c))
            && (forall k, l :: 0 <= k < l < |idx| ==> idx[k] < idx[l])
            && DistinctKeys(out.rows, spec.key)
            && Keys(out.rows, spec.key) == Keys(t.rows, spec.key)
  {
    StageResult(spec, lib, t);
    DropDuplicatesKeepsFirst(t.rows, spec.key);
    DropDuplicatesCount(t.rows, spec.key);
    FixerKeepsKey(spec, lib, t.cols);
    KeysOfMapRows(DropDuplicates(t.rows, spec.key), spec.key, Fixer(lib, t.cols, spec.steps));
    var out := Stage(spec, lib, t).value;
    var dd := DropDuplicates(t.rows, spec.key);
    assert DistinctKeys(out.rows, spec.key) by {
      forall i, j | 0 <= i < j < |out.rows|
        ensures Get(out.rows[i], spec.key) != Get(out.rows[j], spec.key)
      {
        FixRowOtherColumn(lib, t.cols, spec.steps, dd[i], spec.key);
        FixRowOtherColumn(lib, t.cols, spec.steps, dd[j], spec.key);
      }
    }
    StageCells(spec, lib, t);
  }

  /** The cells of staging output row k: converted step columns, every other column as in input row `KeptIndices[k]`. */
  lemma StageCells(spec: StageSpec, lib: Library, t: Table)
    requires ValidSpec(spec)
    requires Stage(spec, lib, t).Ok?
    ensures var out := Stage(spec, lib, t).value;
            var idx := KeptIndices(t.rows, spec.key);
            && |out.rows| == |idx|
            && (forall k :: 0 <= k < |idx| ==> 0 <= idx[k] < |t.rows|)
            && (forall k, j :: 0 <= k < |idx| && 0 <= j < |spec.steps| && spec.steps[j].col in t.cols ==>
                  Get(out.rows[k], spec.steps[j].col) == FixCell(lib, spec.steps[j], Get(t.rows[idx[k]], spec.steps[j].col)))
            && (forall k, c :: 0 <= k < |idx| && c !in WrittenColumns(t.cols, spec.steps) ==>
                  Get(out.rows[k], c) == Get(t.rows[idx[k]], c))
  {
    StageResult(spec, lib, t);
    DropDuplicatesKeepsFirst(t.rows, spec.key);
    var out := Stage(spec, lib, t).value;
    var idx := KeptIndices(t.rows, spec.key);
    forall k | 0 <= k < |idx|
      ensures out.rows[k] == FixRow(lib, t.cols, spec.steps, t.rows[idx[k]])
    {
    }
    forall k | 0 <= k < |idx| {
      FixRowCells(lib, t.cols, spec.steps, t.rows[idx[k]]);
    }
  }

  /** Every converted column of a staged table is in its step's normal form. */
  lemma StageNormalForms(spec: StageSpec, lib: Library, t: Table)
    requires ValidSpec(spec)
    requires Stage(spec, lib, t).Ok?
    ensures var out := Stage(spec, lib, t).value;
            forall k, j :: 0 <= k < |out.rows| && 0 <= j < |spec.steps| && spec.steps[j].col in t.cols ==>
              NormalCell(spec.steps[j], Get(out.rows[k], spec.steps[j].col))
  {
    StageResult(spec, lib, t);
    var out := Stage(spec, lib, t).value;
    var dd := DropDuplicates(t.rows, spec.key);
    forall k, j | 0 <= k < |out.rows| && 0 <= j < |spec.steps| && spec.steps[j].col in t.cols
      ensures NormalCell(spec.steps[j], Get(out.rows[k], spec.steps[j].col))
    {
      FixRowStepColumn(lib, t.cols, spec.steps, dd[k], j);
      FixCellNormal(lib, spec.steps[j], Get(dd[k], spec.steps[j].col));
    }
  }

  /** Re-staging a staged table returns it unchanged. */
  lemma StageIdempotent(spec: StageSpec, lib: Library, t: Table)
    requires ValidSpec(spec)
    requires Stage(spec, lib, t).Ok?
    ensures Stage(spec, lib, Stage(spec, lib, t).value) == Stage(spec, lib, t)
  {
    StageResult(spec, lib, t);
    StageRows(spec, lib, t);
    StageNormalForms(spec, lib, t);
    var out := Stage(spec, lib, t).value;
    assert StageSucceeds(spec, lib, out) by {
      forall j | 0 <= j < |spec.steps|
        ensures StepPossible(lib, out, spec.steps[j])
      {
        forall i | 0 <= i < |out.rows| && spec.steps[j].col in out.cols
          ensures !CellRaises(lib, spec.steps[j], Get(out.rows[i], spec.steps[j].col))
        {
          FixCellNormal(lib, spec.steps[j], Get(out.rows[i], spec.steps[j].col));
        }
      }
    }
    StageResult(spec, lib, out);
    DropDuplicatesOfDistinct(out.rows, spec.key);
    var dd := DropDuplicates(t.rows, spec.key);
    forall k | 0 <= k < |out.rows|
      ensures FixRow(lib, out.cols, spec.steps, out.rows[k]) == out.rows[k]
    {
      FixRowIdempotent(lib, t.cols, spec.steps, dd[k]);
    }
    assert MapRows(out.rows, Fixer(lib, out.cols, spec.steps)) == out.rows;
  }

  /** The shape every staged table has relative to its input. */
  predicate StagedFrom(out: Table, t: Table, key: string) {
    && out.cols == t.cols
    && DistinctKeys(out.rows, key)
    && Keys(out.rows, key) == Keys(t.rows, key)
    && |out.rows| == |Keys(t.rows, key)| <= |t.rows|
  }

  lemma StageFacts(spec: StageSpec, lib: Library, t: Table)
    requires ValidSpec(spec)
    ensures Stage(spec, lib, t).Ok? <==> StageSucceeds(spec, lib, t)
    ensures spec.key !in t.cols ==> Stage(spec, lib, t) == Err(KeyError(spec.key))
    ensures Stage(spec, lib, t).Ok? ==> StagedFrom(Stage(spec, lib, t).value, t, spec.key)
    ensures Stage(spec, lib, t).Ok? ==>
            var out := Stage(spec, lib, t).value;
            forall k, j :: 0 <= k < |out.rows| && 0 <= j < |spec.steps| && spec.steps[j].col in t.cols ==>
              NormalCell(spec.steps[j], Get(out.rows[k], spec.steps[j].col))
  {
    StageResult(spec, lib, t);
    if Stage(spec, lib, t).Ok? {
      StageRows(spec, lib, t);
      StageNormalForms(spec, lib, t);
    }
  }

  /** Step `j`'s column of a staged table, when the input has that column, is in the step's normal form. */
  lemma StageColumn(spec: StageSpec, lib: Library, t: Table, j: int)
    requires ValidSpec(spec) && 0 <= j < |spec.steps|
    ensures Stage(spec, lib, t).Ok? && spec.steps[j].col in t.cols ==>
      var out := Stage(spec, lib, t).value;
      forall k :: 0 <= k < |out.rows| ==> NormalCell(spec.steps[j], Get(out.rows[k], spec.steps[j].col))
  {
    StageFacts(spec, lib, t);
  }

  // ---------------------------------------------------------------------
  // The six stage functions

  const UsersSpec := StageSpec("user_id", [
    ToDatetimeStep("signup_date"),
    NormalizeStep("gender", StripTitle),
    NormalizeStep("city", StripOnly)])

  /** stage_users: signup dates coerced, gender stripped and title-cased, city stripped, deduplicated by user_id. */
  function StageUsers(lib: Library, t: Table): (r: Result<Table>)
    ensures r.Ok? <==>
      && (forall c :: c in ["user_id", "signup_date", "gender", "city"] ==> c in t.cols)
      && (forall i :: 0 <= i < |t.rows| ==> !DatetimeRaises(lib, Get(t.rows[i], "signup_date")))
    ensures "user_id" !in t.cols ==> r == Err(KeyError("user_id"))
    ensures r.Ok? ==> StagedFrom(r.value, t, "user_id")
    ensures r.Ok? ==> forall k :: 0 <= k < |r.value.rows| ==>
      && TimeOrMissing(Get(r.value.rows[k], "signup_date"))
      && TextOf(StripTitle, Get(r.value.rows[k], "gender"))
      && TextOf(StripOnly, Get(r.value.rows[k], "city"))
  {
    var steps := UsersSpec.steps;
    assert steps[0] == ToDatetimeStep("signup_date") && steps[1] == NormalizeStep("gender", StripTitle);
    assert steps[2] == NormalizeStep("city", StripOnly);
    SpecsAreValid();
    StageFacts(UsersSpec, lib, t);
    EveryStep(lib, t, steps);
    StageColumn(UsersSpec, lib, t, 0);
    StageColumn(UsersSpec, lib, t, 1);
    StageColumn(UsersSpec, lib, t, 2);
    Stage(UsersSpec, lib, t)
  }

  const ProductsSpec := StageSpec("product_id", [
    ToNumericStep("price", false),
    ToNumericStep("rating", true),
    NormalizeStep("category", StripOnly),
    NormalizeStep("brand", StripOnly)])

  /** stage_products: price (and rating, when the column exists) coerced to numbers, category and brand stripped. */
  function StageProducts(lib: Library, t: Table): (r: Result<Table>)
    ensures r.Ok? <==>
      && (forall c :: c in ["product_id", "price", "category", "brand"] ==> c in t.cols)
      && (forall i :: 0 <= i < |t.rows| ==> !NumericRaises(lib, Get(t.rows[i], "price")))
      && ("rating" in t.cols ==> forall i :: 0 <= i < |t.rows| ==> !NumericRaises(lib, Get(t.rows[i], "rating")))
    ensures "product_id" !in t.cols ==> r == Err(KeyError("product_id"))
    ensures r.Ok? ==> StagedFrom(r.value, t, "product_id")
    ensures r.Ok? ==> forall k :: 0 <= k < |r.value.rows| ==>
      && NumOrMissing(Get(r.value.rows[k], "price"))
      && ("rating" in t.cols ==> NumOrMissing(Get(r.value.rows[k], "rating")))
      && TextOf(StripOnly, Get(r.value.rows[k], "category"))
      && TextOf(StripOnly, Get(r.value.rows[k], "brand"))
  {
    var steps := ProductsSpec.steps;
    assert steps[0] == ToNumericStep("price", false) && steps[1] == ToNumericStep("rating", true);
    assert steps[2] == NormalizeStep("category", StripOnly) && steps[3] == NormalizeStep("brand", StripOnly);
    SpecsAreValid();
    StageFacts(ProductsSpec, lib, t);
    EveryStep(lib, t, steps);
    StageColumn(ProductsSpec, lib, t, 0);
    StageColumn(ProductsSpec, lib, t, 1);
    StageColumn(ProductsSpec, lib, t, 2);
    StageColumn(ProductsSpec, lib, t, 3);
    Stage(ProductsSpec, lib, t)
  }

  const OrdersSpec := StageSpec("order_id", [
    ToDatetimeStep("order_date"),
    NormalizeStep("order_status", StripLower),
    ToNumericStep("total_amount", false)])

  /** stage_orders: order date coerced, status stripped and lower-cased, amount coerced to a number. */
  function StageOrders(lib: Library, t: Table): (r: Result<Table>)
    ensures r.Ok? <==>
      && (forall c :: c in ["order_id", "order_date", "order_status", "total_amount"] ==> c in t.cols)
      && (forall i :: 0 <= i < |t.rows| ==> !DatetimeRaises(lib, Get(t.rows[i], "order_date")))
      && (forall i :: 0 <= i < |t.rows| ==> !NumericRaises(lib, Get(t.rows[i], "total_amount")))
    ensures "order_id" !in t.cols ==> r == Err(KeyError("order_id"))
    ensures r.Ok? ==> StagedFrom(r.value, t, "order_id")
    ensures r.Ok? ==> forall k :: 0 <= k < |r.value.rows| ==>
      && TimeOrMissing(Get(r.value.rows[k], "order_date"))
      && TextOf(StripLower, Get(r.value.rows[k], "order_status"))
      && NumOrMissing(Get(r.value.rows[k], "total_amount"))
  {
    var steps := OrdersSpec.steps;
    assert steps[0] == ToDatetimeStep("order_date") && steps[1] == NormalizeStep("order_status", StripLower);
    assert steps[2] == ToNumericStep("total_amount", false);
    SpecsAreValid();
    StageFacts(OrdersSpec, lib, t);
    EveryStep(lib, t, steps);
    StageColumn(OrdersSpec, lib, t, 0);
    StageColumn(OrdersSpec, lib, t, 1);
    StageColumn(OrdersSpec, lib, t, 2);
    Stage(OrdersSpec, lib, t)
  }

  const OrderItemsSpec := StageSpec("order_item_id", [
    ToNumericStep("quantity", false),
    ToNumericStep("item_price", false),
    ToNumericStep("item_total", true)])

  /** stage_order_items: quantity, item price (and item total, when the column exists) coerced to numbers. */
  function StageOrderItems(lib: Library, t: Table): (r: Result<Table>)
    ensures r.Ok? <==>
      && (forall c :: c in ["order_item_id", "quantity", "item_price"] ==> c in t.cols)
      && (forall i :: 0 <= i < |t.rows| ==> !NumericRaises(lib, Get(t.rows[i], "quantity")))
      && (forall i :: 0 <= i < |t.rows| ==> !NumericRaises(lib, Get(t.rows[i], "item_price")))
      && ("item_total" in t.cols ==> forall i :: 0 <= i < |t.rows| ==> !NumericRaises(lib, Get(t.rows[i], "item_total")))
    ensures "order_item_id" !in t.cols ==> r == Err(KeyError("order_item_id"))
    ensures r.Ok? ==> StagedFrom(r.value, t, "order_item_id")
    ensures r.Ok? ==> forall k :: 0 <= k < |r.value.rows| ==>
      && NumOrMissing(Get(r.value.rows[k], "quantity"))
      && NumOrMissing(Get(r.value.rows[k], "item_price"))
      && ("item_total" in t.cols ==> NumOrMissing(Get(r.value.rows[k], "item_total")))
  {
    var steps := OrderItemsSpec.steps;
    assert steps[0] == ToNumericStep("quantity", false) && steps[1] == ToNumericStep("item_price", false);
    assert steps[2] == ToNumericStep("item_total", true);
    SpecsAreValid();
    StageFacts(OrderItemsSpec, lib, t);
    EveryStep(lib, t, steps);
    StageColumn(OrderItemsSpec, lib, t, 0);
    StageColumn(OrderItemsSpec, lib, t, 1);
    StageColumn(OrderItemsSpec, lib, t, 2);
    Stage(OrderItemsSpec, lib, t)
  }

  const EventsSpec := StageSpec("event_id", [
    ToDatetimeStep("event_timestamp"),
    NormalizeStep("event_type", StripLower)])

  /** stage_events: timestamps coerced, event type stripped and lower-cased. */
  function StageEvents(lib: Library, t: Table): (r: Result<Table>)
    ensures r.Ok? <==>
      && (forall c :: c in ["event_id", "event_timestamp", "event_type"] ==> c in t.cols)
      && (forall i :: 0 <= i < |t.rows| ==> !DatetimeRaises(lib, Get(t.rows[i], "event_timestamp")))
    ensures "event_id" !in t.cols ==> r == Err(KeyError("event_id"))
    ensures r.Ok? ==> StagedFrom(r.value, t, "event_id")
    ensures r.Ok? ==> forall k :: 0 <= k < |r.value.rows| ==>
      && TimeOrMissing(Get(r.value.rows[k], "event_timestamp"))
      && TextOf(StripLower, Get(r.value.rows[k], "event_type"))
  {
    var steps := EventsSpec.steps;
    assert steps[0] == ToDatetimeStep("event_timestamp") && steps[1] == NormalizeStep("event_type", StripLower);
    SpecsAreValid();
    StageFacts(EventsSpec, lib, t);
    EveryStep(lib, t, steps);
    StageColumn(EventsSpec, lib, t, 0);
    StageColumn(EventsSpec, lib, t, 1);
    Stage(EventsSpec, lib, t)
  }

  const ReviewsSpec := StageSpec("review_id", [
    ToNumericStep("rating", false),
    ToDatetimeStep("review_date")])

  /** stage_reviews: rating coerced to a number (and nothing else: no clamping), review date coerced. */
  function StageReviews(lib: Library, t: Table): (r: Result<Table>)
    ensures r.Ok? <==>
      && (forall c :: c in ["review_id", "rating", "review_date"] ==> c in t.cols)
      && (forall i :: 0 <= i < |t.rows| ==> !NumericRaises(lib, Get(t.rows[i], "rating")))
      && (forall i :: 0 <= i < |t.rows| ==> !DatetimeRaises(lib, Get(t.rows[i], "review_date")))
    ensures "review_id" !in t.cols ==> r == Err(KeyError("review_id"))
    ensures r.Ok? ==> StagedFrom(r.value, t, "review_id")
    ensures r.Ok? ==> forall k :: 0 <= k < |r.value.rows| ==>
      && NumOrMissing(Get(r.value.rows[k], "rating"))
      && TimeOrMissing(Get(r.value.rows[k], "review_date"))
  {
    var steps := ReviewsSpec.steps;
    assert steps[0] == ToNumericStep("rating", false) && steps[1] == ToDatetimeStep("review_date");
    SpecsAreValid();
    StageFacts(ReviewsSpec, lib, t);
    EveryStep(lib, t, steps);
    StageColumn(ReviewsSpec, lib, t, 0);
    StageColumn(ReviewsSpec, lib, t, 1);
    Stage(ReviewsSpec, lib, t)
  }

  /** The calls `stage_all` makes, in order: each raw table goes through its stage under its own name. */
  const Sources: seq<Job<StageSpec>> := [
    Job("users", "users", UsersSpec), Job("products", "products", ProductsSpec),
    Job("orders", "orders", OrdersSpec), Job("order_items", "order_items", OrderItemsSpec),
    Job("events", "events", EventsSpec), Job("reviews", "reviews", ReviewsSpec)]

  const SourceNames: set<string> := {"users", "products", "orders", "order_items", "events", "reviews"}

  lemma SourcesAreDistinct()
    ensures DistinctOutputs(Sources)
    ensures Outputs(Sources) == SourceNames
  {
    assert Outputs(Sources) == {Sources[0].output, Sources[1].output, Sources[2].output,
                                Sources[3].output, Sources[4].output, Sources[5].output};
  }

  /** A stage as the function `stage_all` applies to each (spec, raw table) pair. */
  function StageRunner(lib: Library): (StageSpec, Table) -> Result<Table> {
    (spec, t) => Stage(spec, lib, t)
  }

  /** stage_all: the six staged tables under the six source names; the first failure propagates. */
  function StageAll(lib: Library, raw: map<string, Table>): (r: Result<map<string, Table>>)
    ensures r.Ok? ==> r.value.Keys == SourceNames
  {
    SourcesAreDistinct();
    RunJobs(StageRunner(lib), raw, Sources)
  }

  lemma SourcesAre()
    ensures Sources[0] == Job("users", "users", UsersSpec)
    ensures Sources[1] == Job("products", "products", ProductsSpec)
    ensures Sources[2] == Job("orders", "orders", OrdersSpec)
    ensures Sources[3] == Job("order_items", "order_items", OrderItemsSpec)
    ensures Sources[4] == Job("events", "events", EventsSpec)
    ensures Sources[5] == Job("reviews", "reviews", ReviewsSpec)
  {
  }

  /** The six raw tables `stage_all` reads are present and each stage succeeds on its table. */
  predicate AllStagesSucceed(lib: Library, raw: map<string, Table>) {
    && "users" in raw && "products" in raw && "orders" in raw
    && "order_items" in raw && "events" in raw && "reviews" in raw
    && StageUsers(lib, raw["users"]).Ok?
    && StageProducts(lib, raw["products"]).Ok?
    && StageOrders(lib, raw["orders"]).Ok?
    && StageOrderItems(lib, raw["order_items"]).Ok?
    && StageEvents(lib, raw["events"]).Ok?
    && StageReviews(lib, raw["reviews"]).Ok?
  }

  /** Job `j` of `stage_all` is its stage function applied to its raw table. */
  lemma SourceRuns(lib: Library, raw: map<string, Table>, j: int)
    requires 0 <= j < |Sources| && Sources[j].input in raw
    ensures var t := raw[Sources[j].input];
      StageRunner(lib)(Sources[j].how, t) ==
        if j == 0 then StageUsers(lib, t)
        else if j == 1 then StageProducts(lib, t)
        else if j == 2 then StageOrders(lib, t)
        else if j == 3 then StageOrderItems(lib, t)
        else if j == 4 then StageEvents(lib, t)
        else StageReviews(lib, t)
  {
    SourcesAre();
  }

  /**
   * `stage_all` succeeds exactly when all six inputs exist and all six stages
   * succeed; a missing `users` table is the first exception.
   */
  lemma StageAllSucceeds(lib: Library, raw: map<string, Table>)
    ensures StageAll(lib, raw).Ok? <==> AllStagesSucceed(lib, raw)
    ensures "users" !in raw ==> StageAll(lib, raw) == Err(KeyError("users"))
  {
    if StageAll(lib, raw).Ok? {
      OkMeansAllStagesSucceed(lib, raw);
    } else if AllStagesSucceed(lib, raw) {
      EveryStageRuns(lib, raw);
    }
    if "users" !in raw {
      MissingUsersFails(lib, raw);
    }
  }

  lemma MissingUsersFails(lib: Library, raw: map<string, Table>)
    requires "users" !in raw
    ensures StageAll(lib, raw) == Err(KeyError("users"))
  {
    SourcesAreDistinct();
    SourcesAre();
    assert !JobOk(StageRunner(lib), raw, Sources[0]);
    FirstJobFails(StageRunner(lib), raw, Sources);
  }

  lemma OkMeansAllStagesSucceed(lib: Library, raw: map<string, Table>)
    requires StageAll(lib, raw).Ok?
    ensures AllStagesSucceed(lib, raw)
  {
    StageAllTables(lib, raw);
  }

  lemma EveryStageRuns(lib: Library, raw: map<string, Table>)
    requires AllStagesSucceed(lib, raw)
    ensures StageAll(lib, raw).Ok?
  {
    SourcesAreDistinct();
    forall j | 0 <= j < |Sources|
      ensures JobOk(StageRunner(lib), raw, Sources[j])
    {
      SourcesAre();
      SourceRuns(lib, raw, j);
    }
  }

  /** A successful `stage_all` holds each stage's result under its source name. */
  lemma StageAllTables(lib: Library, raw: map<string, Table>)
    requires StageAll(lib, raw).Ok?
    ensures var s := StageAll(lib, raw).value;
      && "users" in raw && StageUsers(lib, raw["users"]).Ok?
      && "users" in s && s["users"] == StageUsers(lib, raw["users"]).value
    ensures var s := StageAll(lib, raw).value;
      && "products" in raw && StageProducts(lib, raw["products"]).Ok?
      && "products" in s && s["products"] == StageProducts(lib, raw["products"]).value
    ensures var s := StageAll(lib, raw).value;
      && "orders" in raw && StageOrders(lib, raw["orders"]).Ok?
      && "orders" in s && s["orders"] == StageOrders(lib, raw["orders"]).value
    ensures var s := StageAll(lib, raw).value;
      && "order_items" in raw && StageOrderItems(lib, raw["order_items"]).Ok?
      && "order_items" in s && s["order_items"] == StageOrderItems(lib, raw["order_items"]).value
    ensures var s := StageAll(lib, raw).value;
      && "events" in raw && StageEvents(lib, raw["events"]).Ok?
      && "events" in s && s["events"] == StageEvents(lib, raw["events"]).value
    ensures var s := StageAll(lib, raw).value;
      && "reviews" in raw && StageReviews(lib, raw["reviews"]).Ok?
      && "reviews" in s && s["reviews"] == StageReviews(lib, raw["reviews"]).value
  {
    SourcesAreDistinct();
    SourcesAre();
    var run := StageRunner(lib);
    JobOutput(run, raw, Sources, 0);
    SourceRuns(lib, raw, 0);
    JobOutput(run, raw, Sources, 1);
    SourceRuns(lib, raw, 1);
    JobOutput(run, raw, Sources, 2);
    SourceRuns(lib, raw, 2);
    JobOutput(run, raw, Sources, 3);
    SourceRuns(lib, raw, 3);
    JobOutput(run, raw, Sources, 4);
    SourceRuns(lib, raw, 4);
    JobOutput(run, raw, Sources, 5);
    SourceRuns(lib, raw, 5);
  }

  // ---------------------------------------------------------------------
  // Consequences the source's behaviour has for callers

  /** No stage touches its own key column, and no column is coerced twice. */
  lemma SpecsAreValid()
    ensures ValidSpec(UsersSpec) && ValidSpec(ProductsSpec) && ValidSpec(OrdersSpec)
    ensures ValidSpec(OrderItemsSpec) && ValidSpec(EventsSpec) && ValidSpec(ReviewsSpec)
  {
    UsersSpecValid();
    ProductsSpecValid();
    OrdersSpecValid();
    OrderItemsSpecValid();
    EventsSpecValid();
    ReviewsSpecValid();
  }

  lemma UsersSpecValid()
    ensures ValidSpec(UsersSpec)
  {
  }

  lemma ProductsSpecValid()
    ensures ValidSpec(ProductsSpec)
  {
  }

  lemma OrdersSpecValid()
    ensures ValidSpec(OrdersSpec)
  {
  }

  lemma OrderItemsSpecValid()
    ensures ValidSpec(OrderItemsSpec)
  {
  }

  lemma EventsSpecValid()
    ensures ValidSpec(EventsSpec)
  {
  }

  lemma ReviewsSpecValid()
    ensures ValidSpec(ReviewsSpec)
  {
  }

  /** Staging already-staged data gives back the same table, for every stage. */
  lemma RestagingIsIdentity(lib: Library, t: Table)
    ensures StageUsers(lib, t).Ok? ==> StageUsers(lib, StageUsers(lib, t).value) == StageUsers(lib, t)
    ensures StageProducts(lib, t).Ok? ==> StageProducts(lib, StageProducts(lib, t).value) == StageProducts(lib, t)
    ensures StageOrders(lib, t).Ok? ==> StageOrders(lib, StageOrders(lib, t).value) == StageOrders(lib, t)
    ensures StageOrderItems(lib, t).Ok? ==> StageOrderItems(lib, StageOrderItems(lib, t).value) == StageOrderItems(lib, t)
    ensures StageEvents(lib, t).Ok? ==> StageEvents(lib, StageEvents(lib, t).value) == StageEvents(lib, t)
    ensures StageReviews(lib, t).Ok? ==> StageReviews(lib, StageReviews(lib, t).value) == StageReviews(lib, t)
  {
    SpecsAreValid();
    if StageUsers(lib, t).Ok? { StageIdempotent(UsersSpec, lib, t); }
    if StageProducts(lib, t).Ok? { StageIdempotent(ProductsSpec, lib, t); }
    if StageOrders(lib, t).Ok? { StageIdempotent(OrdersSpec, lib, t); }
    if StageOrderItems(lib, t).Ok? { StageIdempotent(OrderItemsSpec, lib, t); }
    if StageEvents(lib, t).Ok? { StageIdempotent(EventsSpec, lib, t); }
    if StageReviews(lib, t).Ok? { StageIdempotent(ReviewsSpec, lib, t); }
  }

  /** The rows whose key is missing, as the stage functions count them for their warning. */
  function NullKeyCount(rows: seq<Row>, key: string): nat {
    Count(rows, r => Get(r, key).None?)
  }

  /**
   * Missing keys are counted, never filtered: a stage's output holds exactly
   * one row with a missing key when its input holds any, and none otherwise.
   */
  lemma NullKeysSurviveOnce(spec: StageSpec, lib: Library, t: Table)
    requires ValidSpec(spec)
    requires Stage(spec, lib, t).Ok?
    ensures NullKeyCount(Stage(spec, lib, t).value.rows, spec.key) ==
            (if NullKeyCount(t.rows, spec.key) > 0 then 1 else 0)
  {
    StageFacts(spec, lib, t);
    var out := Stage(spec, lib, t).value.rows;
    var p: Row -> bool := r => Get(r, spec.key).None?;
    CountZeroIff(t.rows, p);
    CountZeroIff(out, p);
    CountIsCardinality(out, p);
    var m := Matching(out, p);
    if NullKeyCount(t.rows, spec.key) > 0 {
      var i :| 0 <= i < |t.rows| && p(t.rows[i]);
      assert None in Keys(t.rows, spec.key);
      var k :| 0 <= k < |out| && Get(out[k], spec.key) == None;
      assert m == {k} by {
        forall j | j in m
          ensures j == k
        {
          assert Get(out[j], spec.key) == Get(out[k], spec.key);
        }
      }
    } else {
      forall k | 0 <= k < |out|
        ensures !p(out[k])
      {
        var key := Get(out[k], spec.key);
        assert key in Keys(out, spec.key);
        var i :| 0 <= i < |t.rows| && Get(t.rows[i], spec.key) == key;
        assert !p(t.rows[i]);
      }
    }
  }

  /** stage_reviews only coerces ratings: a rating outside 1..5 reaches the output unchanged. */
  lemma ReviewRatingsNotClamped(lib: Library, t: Table)
    requires StageReviews(lib, t).Ok?
    ensures var out := StageReviews(lib, t).value;
            var idx := KeptIndices(t.rows, "review_id");
            |idx| == |out.rows| &&
            forall k :: 0 <= k < |out.rows| ==>
              0 <= idx[k] < |t.rows| &&
              Get(out.rows[k], "rating") == ToNumeric(lib, Get(t.rows[idx[k]], "rating"))
  {
    SpecsAreValid();
    StageRows(ReviewsSpec, lib, t);
    var idx := KeptIndices(t.rows, "review_id");
    forall k | 0 <= k < |idx|
      ensures Get(FixRow(lib, t.cols, ReviewsSpec.steps, t.rows[idx[k]]), "rating")
              == ToNumeric(lib, Get(t.rows[idx[k]], "rating"))
    {
      FixRowStepColumn(lib, t.cols, ReviewsSpec.steps, t.rows[idx[k]], 0);
    }
  }

  lemma NanNormalized()
    ensures Normalize(StripTitle, "nan") == "Nan"
    ensures Normalize(StripOnly, "nan") == "nan"
  {
    assert Strings.Stripped("nan");
    Strings.StripOfStripped("nan");
    Strings.TitleAt("nan", 0);
    Strings.TitleAt("nan", 1);
    Strings.TitleAt("nan", 2);
  }

  /** `astype(str)` turns a missing gender into the text "Nan" (and a missing city into "nan"). */
  lemma MissingGenderBecomesNan(lib: Library, t: Table)
    requires StageUsers(lib, t).Ok?
    ensures var out := StageUsers(lib, t).value;
            var idx := KeptIndices(t.rows, "user_id");
            |idx| == |out.rows| &&
            forall k :: 0 <= k < |out.rows| ==>
              0 <= idx[k] < |t.rows| &&
              (Get(t.rows[idx[k]], "gender").None? ==> Get(out.rows[k], "gender") == Some(Text("Nan"))) &&
              (Get(t.rows[idx[k]], "city").None? ==> Get(out.rows[k], "city") == Some(Text("nan")))
  {
    SpecsAreValid();
    StageRows(UsersSpec, lib, t);
    NanNormalized();
    var idx := KeptIndices(t.rows, "user_id");
    forall k | 0 <= k < |idx|
      ensures var row := FixRow(lib, t.cols, UsersSpec.steps, t.rows[idx[k]]);
              && (Get(t.rows[idx[k]], "gender").None? ==> Get(row, "gender") == Some(Text("Nan")))
              && (Get(t.rows[idx[k]], "city").None? ==> Get(row, "city") == Some(Text("nan")))
    {
      FixRowStepColumn(lib, t.cols, UsersSpec.steps, t.rows[idx[k]], 1);
      FixRowStepColumn(lib, t.cols, UsersSpec.steps, t.rows[idx[k]], 2);
    }
  }
}

=== FILE: strings.dfy ===
/**
 * Python's `str.strip()`, `str.lower()` and `str.title()`, which pandas'
 * `.str` accessor applies element-wise.  Whitespace is the full set of
 * characters for which `str.isspace()` holds; case mapping covers the ASCII
 * letters.
 */
module Strings {

  /** `str.isspace()` for one character. */
  predicate IsSpace(c: char) {
    c == ' ' || ('\t' <= c <= '\r') || ('\U{1C}' <= c <= '\U{1F}')
    || c == '\U{85}' || c == '\U{A0}' || c == '\U{1680}'
    || ('\U{2000}' <= c <= '\U{200A}') || c == '\U{2028}' || c == '\U{2029}'
    || c == '\U{202F}' || c == '\U{205F}' || c == '\U{3000}'
  }

  predicate IsUpper(c: char) {
    'A' <= c <= 'Z'
  }

  predicate IsLower(c: char) {
    'a' <= c <= 'z'
  }

  /** A character with case: `title()` lower-cases the character after one of these. */
  predicate IsCased(c: char) {
    IsUpper(c) || IsLower(c)
  }

  /** A letter's place in the alphabet, the same for both of its cases. */
  function AlphabetIndex(c: char): (k: int)
    requires IsCased(c)
    ensures 0 <= k < 26
  {
    if IsUpper(c) then c as int - 'A' as int else c as int - 'a' as int
  }

  /** `a` is `b` itself or the other case of the same letter. */
  predicate SameLetter(a: char, b: char) {
    a == b || (IsCased(a) && IsCased(b) && AlphabetIndex(a) == AlphabetIndex(b))
  }

  /** Two characters that are the same letter as `c` and agree on case are equal. */
  lemma SameLetterSameCase(a: char, b: char, c: char)
    requires SameLetter(a, c) && SameLetter(b, c)
    requires IsUpper(a) == IsUpper(b) && IsLower(a) == IsLower(b)
    ensures a == b
  {
    if a != c && b != c {
      assert a as int == b as int;
    }
  }

  function LowerChar(c: char): (d: char)
    ensures !IsUpper(d)
    ensures IsCased(d) == IsCased(c)
    ensures SameLetter(d, c)
  {
    if IsUpper(c) then (c as int + 32) as char else c
  }

  function UpperChar(c: char): (d: char)
    ensures !IsLower(d)
    ensures IsCased(d) == IsCased(c)
    ensures SameLetter(d, c)
  {
    if IsLower(c) then (c as int - 32) as char else c
  }

  /** Neither end of `s` is whitespace. */
  predicate Stripped(s: string) {
    |s| == 0 || (!IsSpace(s[0]) && !IsSpace(s[|s| - 1]))
  }

  /** `s` with its leading whitespace removed. */
  function StripLeft(s: string): (r: string)
    ensures |r| <= |s| && r == s[|s| - |r|..]
    ensures forall k :: 0 <= k < |s| - |r| ==> IsSpace(s[k])
    ensures |r| == 0 || !IsSpace(r[0])
  {
    if |s| > 0 && IsSpace(s[0]) then StripLeft(s[1..]) else s
  }

  /** `s` with its trailing whitespace removed. */
  function StripRight(s: string): (r: string)
    ensures |r| <= |s| && r == s[..|r|]
    ensures forall k :: |r| <= k < |s| ==> IsSpace(s[k])
    ensures |r| == 0 || !IsSpace(r[|r| - 1])
  {
    if |s| > 0 && IsSpace(s[|s| - 1]) then StripRight(s[..|s| - 1]) else s
  }

  /** `str.strip()`: `s` without whitespace at either end. */
  function Strip(s: string): (r: string)
    ensures Stripped(r)
  {
    var l := StripLeft(s);
    var r := StripRight(l);
    assert |r| > 0 ==> r[0] == l[0];
    r
  }

  /** The start of the infix of `s` that `Strip` keeps. */
  function StripStart(s: string): nat
  {
    |s| - |StripLeft(s)|
  }

  /** Strip keeps a contiguous piece of `s`... */
  lemma StripIsInfix(s: string)
    ensures StripStart(s) + |Strip(s)| <= |s|
    ensures Strip(s) == s[StripStart(s)..StripStart(s) + |Strip(s)|]
  {
    var l := StripLeft(s);
    var r := StripRight(l);
    var i := |s| - |l|;
    assert Strip(s) == r;
    assert l == s[i..] && r == l[..|r|];
    assert s[i..][..|r|] == s[i..i + |r|];
  }

  /** ...and everything it drops is whitespace. */
  lemma StripDropsOnlyWhitespace(s: string)
    ensures StripStart(s) + |Strip(s)| <= |s|
    ensures forall k :: 0 <= k < StripStart(s) ==> IsSpace(s[k])
    ensures forall k :: StripStart(s) + |Strip(s)| <= k < |s| ==> IsSpace(s[k])
  {
    var l := StripLeft(s);
    var r := StripRight(l);
    var i := |s| - |l|;
    assert l == s[i..];
    forall k | i + |r| <= k < |s|
      ensures IsSpace(s[k])
    {
      assert s[k] == l[k - i];
    }
  }

  lemma StripOfStripped(s: string)
    requires Stripped(s)
    ensures Strip(s) == s
  {
  }

  lemma StripIdempotent(s: string)
    ensures Strip(Strip(s)) == Strip(s)
  {
    StripOfStripped(Strip(s));
  }

  /** `str.lower()`. */
  function Lower(s: string): (r: string)
    ensures |r| == |s|
    ensures forall i :: 0 <= i < |s| ==> !IsUpper(r[i])
    ensures forall i :: 0 <= i < |s| ==> SameLetter(r[i], s[i])
    ensures forall i :: 0 <= i < |s| && !IsCased(s[i]) ==> r[i] == s[i]
  {
    seq(|s|, i requires 0 <= i < |s| => LowerChar(s[i]))
  }

  /** `Lower(s)` is the only string of the letters of `s` with no upper-case letter. */
  lemma LowerUnique(s: string, t: string)
    requires |t| == |s| && IsLowered(t)
    requires forall i :: 0 <= i < |s| ==> SameLetter(t[i], s[i])
    ensures t == Lower(s)
  {
    forall i | 0 <= i < |s|
      ensures t[i] == Lower(s)[i]
    {
      SameLetterSameCase(t[i], Lower(s)[i], s[i]);
    }
  }

  /** No ASCII upper-case letter. */
  predicate IsLowered(s: string) {
    forall i :: 0 <= i < |s| ==> !IsUpper(s[i])
  }

  lemma LowerOfLowered(s: string)
    requires IsLowered(s)
    ensures Lower(s) == s
  {
  }

  lemma LowerIdempotent(s: string)
    ensures Lower(Lower(s)) == Lower(s)
  {
    LowerOfLowered(Lower(s));
  }

  /**
   * `str.title()` as CPython computes it: one pass over the characters that
   * upper-cases a character unless the previous ORIGINAL character is cased,
   * in which case it lower-cases it.
   */
  function TitleFrom(s: string, previousIsCased: bool): (r: string)
    ensures |r| == |s|
    ensures forall i :: 0 <= i < |s| ==> SameLetter(r[i], s[i])
    decreases |s|
  {
    if |s| == 0 then ""
    else [if previousIsCased then LowerChar(s[0]) else UpperChar(s[0])]
         + TitleFrom(s[1..], IsCased(s[0]))
  }

  function Title(s: string): (r: string)
    ensures |r| == |s|
    ensures forall i :: 0 <= i < |s| ==> SameLetter(r[i], s[i])
  {
    TitleFrom(s, false)
  }

  /** Every word starts upper-case and continues lower-case, words being maximal runs of cased characters. */
  predicate IsTitled(s: string) {
    forall i :: 0 <= i < |s| ==> TitledAt(s, i)
  }

  /** Character `i` is lower-case after a cased character and not lower-case elsewhere. */
  predicate TitledAt(s: string, i: int)
    requires 0 <= i < |s|
  {
    if i > 0 && IsCased(s[i - 1]) then !IsUpper(s[i]) else !IsLower(s[i])
  }

  /** The i-th character of `TitleFrom`, in closed form. */
  lemma {:induction false} TitleFromAt(s: string, previousIsCased: bool, i: int)
    requires 0 <= i < |s|
    ensures TitleFrom(s, previousIsCased)[i] ==
      (if (if i == 0 then previousIsCased else IsCased(s[i - 1]))
       then LowerChar(s[i]) else UpperChar(s[i]))
    decreases i
  {
    if i > 0 {
      TitleFromAt(s[1..], IsCased(s[0]), i - 1);
    }
  }

  lemma TitleAt(s: string, i: int)
    requires 0 <= i < |s|
    ensures Title(s)[i] == if i > 0 && IsCased(s[i - 1]) then LowerChar(s[i]) else UpperChar(s[i])
  {
    TitleFromAt(s, false, i);
  }

  /**
   * `title()` keeps every uncased character, keeps which characters are
   * cased, and yields a titled string.
   */
  lemma TitleShape(s: string)
    ensures forall i :: 0 <= i < |s| ==> IsCased(Title(s)[i]) == IsCased(s[i])
    ensures forall i :: 0 <= i < |s| && !IsCased(s[i]) ==> Title(s)[i] == s[i]
    ensures IsTitled(Title(s))
  {
    forall i | 0 <= i < |s|
      ensures IsCased(Title(s)[i]) == IsCased(s[i])
      ensures !IsCased(s[i]) ==> Title(s)[i] == s[i]
    {
      TitleAt(s, i);
    }
    forall i | 0 <= i < |s|
      ensures TitledAt(Title(s), i)
    {
      TitleAt(s, i);
    }
  }

  /** `Title(s)` is the only titled string of the letters of `s`. */
  lemma TitleUnique(s: string, t: string)
    requires |t| == |s| && IsTitled(t)
    requires forall i :: 0 <= i < |s| ==> SameLetter(t[i], s[i])
    ensures t == Title(s)
  {
    forall i | 0 <= i < |s|
      ensures t[i] == Title(s)[i]
    {
      TitleAt(s, i);
      assert TitledAt(t, i);
      if i > 0 {
        assert IsCased(t[i - 1]) == IsCased(s[i - 1]);
      }
      SameLetterSameCase(t[i], Title(s)[i], s[i]);
    }
  }

  lemma TitleOfTitled(s: string)
    requires IsTitled(s)
    ensures Title(s) == s
  {
    forall i | 0 <= i < |s|
      ensures Title(s)[i] == s[i]
    {
      TitleAt(s, i);
      assert TitledAt(s, i);
    }
  }

  lemma TitleIdempotent(s: string)
    ensures Title(Title(s)) == Title(s)
  {
    TitleShape(s);
    TitleOfTitled(Title(s));
  }

  /** Case mapping never turns a character into whitespace or back. */
  lemma CaseKeepsStripped(s: string)
    requires Stripped(s)
    ensures Stripped(Lower(s))
    ensures Stripped(Title(s))
  {
    TitleShape(s);
  }
}

=== FILE: tables.dfy ===
/**
 * The tabular data model shared by every stage: a table is an ordered
 * sequence of rows, a row maps column names to cells, and a cell is either
 * a value or missing (pandas' NaN/NaT/None are all `None` here).
 */
module Tables {

  datatype Option<+T> = None | Some(value: T)

  /** Nanoseconds in an hour and in a day; pandas timestamps have nanosecond resolution. */
  const NanosPerHour: int := 3_600_000_000_000
  const NanosPerDay: int := 86_400_000_000_000

  type TimeOfDay = n: int | 0 <= n < NanosPerDay

  /** A `datetime64` value: a day number (days since 1970-01-01) and the time within that day. */
  datatype Timestamp = Timestamp(day: int, nanos: TimeOfDay)

  /** `a > b` on timestamps. */
  predicate Later(a: Timestamp, b: Timestamp) {
    a.day > b.day || (a.day == b.day && a.nanos > b.nanos)
  }

  function Midnight(day: int): Timestamp {
    Timestamp(day, 0)
  }

  /**
   * A present cell value.  Integers and floats are both `Num`, because
   * pandas compares, hashes and deduplicates `1` and `1.0` alike.  `Date`
   * is a plain calendar date (what `.dt.date` produces).
   */
  datatype Value =
    | Num(x: real)
    | Text(s: string)
    | Time(t: Timestamp)
    | Date(day: int)

  type Cell = Option<Value>
  type Row = map<string, Cell>

  datatype Table = Table(cols: seq<string>, rows: seq<Row>)

  /** Exceptions the modelled code can raise. */
  datatype Error =
    | KeyError(name: string)          // a missing column or table
    | CoercionError(column: string)   // the coercion library raised on a value
    | AttributeError(column: string)  // `.dt` used on a column that is not datetime-like
    | TypeError(column: string)       // arithmetic on a non-numeric value
    | ValidationError

  datatype Result<+T> = Ok(value: T) | Err(error: Error) {
    predicate IsFailure() {
      Err?
    }

    function PropagateFailure<U>(): Result<U>
      requires Err?
    {
      Err(error)
    }

    function Extract(): T
      requires Ok?
    {
      value
    }
  }

  /** The cell of column `c` in row `r`; a row without the column reads as missing. */
  function Get(r: Row, c: string): Cell {
    if c in r then r[c] else None
  }

  /** The column list after assigning column `c`: a new column goes last. */
  function AddColumn(cols: seq<string>, c: string): (r: seq<string>)
    ensures c in r
    ensures forall d :: d in cols ==> d in r
    ensures forall d :: d in r ==> d in cols || d == c
  {
    if c in cols then cols else cols + [c]
  }

  /** The number of rows satisfying `p`, as a boolean column's `.sum()`. */
  function Count(rows: seq<Row>, p: Row -> bool): (n: nat)
    ensures n <= |rows|
  {
    if |rows| == 0 then 0
    else Count(rows[..|rows| - 1], p) + (if p(rows[|rows| - 1]) then 1 else 0)
  }

  /** The indices of the rows satisfying `p`. */
  function Matching(rows: seq<Row>, p: Row -> bool): set<int> {
    set i | 0 <= i < |rows| && p(rows[i])
  }

  lemma {:induction false} CountIsCardinality(rows: seq<Row>, p: Row -> bool)
    ensures Count(rows, p) == |Matching(rows, p)|
    decreases |rows|
  {
    if |rows| > 0 {
      var n := |rows| - 1;
      var front := rows[..n];
      CountIsCardinality(front, p);
      var m, mf := Matching(rows, p), Matching(front, p);
      var extra: set<int> := if p(rows[n]) then {n} else {};
      forall i | i in m
        ensures i in mf + extra
      {
        if i < n {
          assert front[i] == rows[i];
        }
      }
      forall i | i in mf + extra
        ensures i in m
      {
        if i < n {
          assert front[i] == rows[i];
        }
      }
      assert m == mf + extra;
      assert n !in mf;
      assert |m| == |mf| + |extra|;
    }
  }

  lemma CountZeroIff(rows: seq<Row>, p: Row -> bool)
    ensures Count(rows, p) == 0 <==> forall i :: 0 <= i < |rows| ==> !p(rows[i])
  {
    CountIsCardinality(rows, p);
    if Count(rows, p) == 0 {
      forall i | 0 <= i < |rows|
        ensures !p(rows[i])
      {
        assert i !in Matching(rows, p);
      }
    } else {
      var i :| i in Matching(rows, p);
    }
  }

  /** Row `f` applied to every row, as a column assignment does. */
  function MapRows(rows: seq<Row>, f: Row -> Row): (r: seq<Row>)
    ensures |r| == |rows|
    ensures forall i :: 0 <= i < |rows| ==> r[i] == f(rows[i])
  {
    seq(|rows|, i requires 0 <= i < |rows| => f(rows[i]))
  }

  /** `f` leaves column `c` of every row as it is. */
  ghost predicate KeepsColumn(f: Row -> Row, c: string) {
    forall r :: Get(f(r), c) == Get(r, c)
  }
}

=== FILE: validation.dfy ===
/**
 * The data-quality validator: four check families, each a dictionary from
 * a check name to a violation count, and `validate_all`, which folds them
 * into one pass/fail verdict.  A family builds its dictionary entry by entry;
 * an exception abandons the whole family, and `validate_all` then counts
 * that family as failed and carries on with the next one.
 */
module Validation {
  import opened Tables
  import opened Coercion

  // ---------------------------------------------------------------------
  // Building a family's result dictionary

  /** What one entry of a check family contributes: nothing, a count, or an exception. */
  datatype Outcome = Skip | Report(n: int) | Raise(error: Error)

  type Entry = (string, Outcome)

  function EntryNames(entries: seq<Entry>): set<string> {
    set j | 0 <= j < |entries| :: entries[j].0
  }

  predicate DistinctEntries(entries: seq<Entry>) {
    forall i, j :: 0 <= i < j < |entries| ==> entries[i].0 != entries[j].0
  }

  /**
   * The family's dictionary: one key per reported entry, with its count;
   * any exception abandons the family.
   */
  function Collect(entries: seq<Entry>): (r: Result<map<string, int>>)
    requires DistinctEntries(entries)
    ensures r.Err? <==> exists j :: 0 <= j < |entries| && entries[j].1.Raise?
    ensures r.Ok? ==> r.value.Keys <= EntryNames(entries)
    ensures r.Ok? ==> forall j :: 0 <= j < |entries| ==>
      (entries[j].0 in r.value <==> entries[j].1.Report?)
    ensures r.Ok? ==> forall j :: 0 <= j < |entries| && entries[j].1.Report? ==>
      r.value[entries[j].0] == entries[j].1.n
    decreases |entries|
  {
    if |entries| == 0 then Ok(map[])
    else
      var rest := Collect(entries[1..]);
      assert forall j :: 1 <= j < |entries| ==> entries[1..][j - 1] == entries[j];
      assert EntryNames(entries) == {entries[0].0} + EntryNames(entries[1..]);
      match entries[0].1
      case Raise(e) => Err(e)
      case Skip => rest
      case Report(n) =>
        if rest.Err? then rest else Ok(rest.value[entries[0].0 := n])
  }

  /** `validate_all`'s verdict on one family: it raised, or some count is positive. */
  predicate FamilyFailed(r: Result<map<string, int>>) {
    r.Err? || exists k :: k in r.value && r.value[k] > 0
  }

  /** An entry that fails its family. */
  predicate Fails(o: Outcome) {
    o.Raise? || (o.Report? && o.n > 0)
  }

  /** A family fails exactly when one of its entries raises or reports a positive count. */
  lemma CollectFails(entries: seq<Entry>)
    requires DistinctEntries(entries)
    ensures FamilyFailed(Collect(entries)) <==> exists j :: 0 <= j < |entries| && Fails(entries[j].1)
  {
    var r := Collect(entries);
    if r.Ok? {
      if exists k :: k in r.value && r.value[k] > 0 {
        var k :| k in r.value && r.value[k] > 0;
        var j :| 0 <= j < |entries| && entries[j].0 == k;
        assert Fails(entries[j].1);
      }
      if exists j :: 0 <= j < |entries| && Fails(entries[j].1) {
        var j :| 0 <= j < |entries| && Fails(entries[j].1);
        assert entries[j].0 in r.value;
      }
    } else {
      var j :| 0 <= j < |entries| && entries[j].1.Raise?;
      assert Fails(entries[j].1);
    }
  }

  /** A named column of a named table. */
  datatype ColumnRef = ColumnRef(table: string, col: string)

  // ---------------------------------------------------------------------
  // check_null_primary_keys

  const PrimaryKeys: seq<ColumnRef> := [
    ColumnRef("dim_users", "user_id"), ColumnRef("dim_products", "product_id"),
    ColumnRef("fact_orders", "order_id"), ColumnRef("fact_order_items", "order_item_id"),
    ColumnRef("fact_events", "event_id"), ColumnRef("fact_reviews", "review_id")]

  /** The positions of the rows whose `col` is missing. */
  function NullRows(rows: seq<Row>, col: string): set<int> {
    set i | 0 <= i < |rows| && Get(rows[i], col).None?
  }

  /** A table's entry: -1 when the key column is absent, else the number of missing keys. */
  function NullKeyProbe(t: Table, col: string): (o: Outcome)
    ensures o.Report?
    ensures col !in t.cols ==> o.n == -1
    ensures col in t.cols ==> o.n == |NullRows(t.rows, col)|
  {
    if col !in t.cols then Report(-1)
    else
      var p: Row -> bool := r => Get(r, col).None?;
      CountIsCardinality(t.rows, p);
      assert Matching(t.rows, p) == NullRows(t.rows, col);
      Report(Count(t.rows, p))
  }

  function NullKeyEntries(tables: map<string, Table>): (e: seq<Entry>)
    ensures |e| == |PrimaryKeys|
    ensures forall j :: 0 <= j < |e| ==> e[j].0 == PrimaryKeys[j].table
  {
    seq(|PrimaryKeys|, j requires 0 <= j < |PrimaryKeys| =>
      var ref := PrimaryKeys[j];
      (ref.table, if ref.table in tables then NullKeyProbe(tables[ref.table], ref.col) else Skip))
  }

  lemma PrimaryKeysDistinct()
    ensures forall i, j :: 0 <= i < j < |PrimaryKeys| ==> PrimaryKeys[i].table != PrimaryKeys[j].table
  {
  }

  /**
   * check_null_primary_keys: an entry for every listed table that is present,
   * -1 when its key column is absent, else its number of missing keys.
   */
  function CheckNullPrimaryKeys(tables: map<string, Table>): (r: Result<map<string, int>>)
    ensures r.Ok?
    ensures forall j :: 0 <= j < |PrimaryKeys| ==> (PrimaryKeys[j].table in r.value <==> PrimaryKeys[j].table in tables)
    ensures forall j :: 0 <= j < |PrimaryKeys| && PrimaryKeys[j].table in tables ==>
      var t := tables[PrimaryKeys[j].table];
      r.value[PrimaryKeys[j].table] ==
        if PrimaryKeys[j].col in t.cols then |NullRows(t.rows, PrimaryKeys[j].col)| else -1
  {
    PrimaryKeysDistinct();
    Collect(NullKeyEntries(tables))
  }

  /** No key column of a present table holds a missing value; an absent key column is no failure. */
  predicate PrimaryKeysHold(tables: map<string, Table>) {
    forall j :: 0 <= j < |PrimaryKeys| && PrimaryKeys[j].table in tables
                && PrimaryKeys[j].col in tables[PrimaryKeys[j].table].cols ==>
      NullRows(tables[PrimaryKeys[j].table].rows, PrimaryKeys[j].col) == {}
  }

  lemma NullKeysFamilyPasses(tables: map<string, Table>)
    ensures !FamilyFailed(CheckNullPrimaryKeys(tables)) <==> PrimaryKeysHold(tables)
  {
    PrimaryKeysDistinct();
    var e := NullKeyEntries(tables);
    CollectFails(e);
    if !PrimaryKeysHold(tables) {
      var j :| 0 <= j < |PrimaryKeys| && PrimaryKeys[j].table in tables
                && PrimaryKeys[j].col in tables[PrimaryKeys[j].table].cols
                && NullRows(tables[PrimaryKeys[j].table].rows, PrimaryKeys[j].col) != {};
      assert Fails(e[j].1);
    }
  }

  // ---------------------------------------------------------------------
  // check_referential_integrity

  datatype ForeignKey = ForeignKey(child: string, fk: string, parent: string, pk: string)

  const ForeignKeys: seq<ForeignKey> := [
    ForeignKey("fact_orders", "user_id", "dim_users", "user_id"),
    ForeignKey("fact_order_items", "order_id", "fact_orders", "order_id"),
    ForeignKey("fact_order_items", "product_id", "dim_products", "product_id"),
    ForeignKey("fact_events", "user_id", "dim_users", "user_id"),
    ForeignKey("fact_reviews", "product_id", "dim_products", "product_id")]

  /** The result key of a rule: `child.fk → parent.pk`. */
  function RuleName(rule: ForeignKey): string {
    rule.child + "." + rule.fk + " \U{2192} " + rule.parent + "." + rule.pk
  }

  /** The distinct present values of column `col`. */
  function PresentValues(rows: seq<Row>, col: string): set<Value> {
    set i | 0 <= i < |rows| && Get(rows[i], col).Some? :: Get(rows[i], col).value
  }

  /** The distinct foreign-key values with no matching parent key. */
  function Orphans(child: Table, parent: Table, rule: ForeignKey): set<Value> {
    PresentValues(child.rows, rule.fk) - PresentValues(parent.rows, rule.pk)
  }

  /** A rule's entry: skipped when a table or column is absent, else the number of orphaned values. */
  function OrphanProbe(tables: map<string, Table>, rule: ForeignKey): (o: Outcome)
    ensures o.Skip? || o.Report?
    ensures o.Report? <==> (rule.child in tables && rule.parent in tables
      && rule.fk in tables[rule.child].cols && rule.pk in tables[rule.parent].cols)
    ensures o.Report? ==> o.n == |Orphans(tables[rule.child], tables[rule.parent], rule)|
    ensures o.Report? ==> (o.n == 0 <==> Resolves(tables[rule.child], tables[rule.parent], rule))
    ensures o.Report? ==> o.n <= |tables[rule.child].rows|
  {
    if rule.child !in tables || rule.parent !in tables then Skip
    else if rule.fk !in tables[rule.child].cols || rule.pk !in tables[rule.parent].cols then Skip
    else
      var child, parent := tables[rule.child], tables[rule.parent];
      OrphansEmptyIff(child, parent, rule);
      OrphansBounded(child, parent, rule);
      Report(|Orphans(child, parent, rule)|)
  }

  /** Every present foreign-key value occurs among the parent's keys. */
  predicate Resolves(child: Table, parent: Table, rule: ForeignKey) {
    forall i :: 0 <= i < |child.rows| && Get(child.rows[i], rule.fk).Some? ==>
      exists j :: 0 <= j < |parent.rows| && Get(parent.rows[j], rule.pk) == Get(child.rows[i], rule.fk)
  }

  /** No orphan exactly when every foreign key resolves; missing foreign keys never count. */
  lemma OrphansEmptyIff(child: Table, parent: Table, rule: ForeignKey)
    ensures |Orphans(child, parent, rule)| == 0 <==> Resolves(child, parent, rule)
  {
    var o := Orphans(child, parent, rule);
    if o == {} {
      forall i | 0 <= i < |child.rows| && Get(child.rows[i], rule.fk).Some?
        ensures exists j :: 0 <= j < |parent.rows| && Get(parent.rows[j], rule.pk) == Get(child.rows[i], rule.fk)
      {
        var v := Get(child.rows[i], rule.fk).value;
        assert v in PresentValues(child.rows, rule.fk);
        assert v !in o;
        var j :| 0 <= j < |parent.rows| && Get(parent.rows[j], rule.pk).Some? && Get(parent.rows[j], rule.pk).value == v;
      }
    } else {
      var v :| v in o;
      var i :| 0 <= i < |child.rows| && Get(child.rows[i], rule.fk).Some? && Get(child.rows[i], rule.fk).value == v;
    }
  }

  /** A column has no more distinct present values than rows. */
  lemma {:induction false} PresentValuesBounded(rows: seq<Row>, col: string)
    ensures |PresentValues(rows, col)| <= |rows|
    decreases |rows|
  {
    if |rows| > 0 {
      var n := |rows| - 1;
      PresentValuesBounded(rows[..n], col);
      var front := PresentValues(rows[..n], col);
      if Get(rows[n], col).Some? {
        assert PresentValues(rows, col) == front + {Get(rows[n], col).value} by {
          PresentValuesSnoc(rows, col);
        }
      } else {
        assert PresentValues(rows, col) == front by {
          PresentValuesSnoc(rows, col);
        }
      }
    }
  }

  lemma PresentValuesSnoc(rows: seq<Row>, col: string)
    requires |rows| > 0
    ensures var n := |rows| - 1;
      PresentValues(rows, col) == PresentValues(rows[..n], col)
        + (if Get(rows[n], col).Some? then {Get(rows[n], col).value} else {})
  {
    var n := |rows| - 1;
    var front := PresentValues(rows[..n], col);
    forall v | v in PresentValues(rows, col)
      ensures v in front || (Get(rows[n], col).Some? && v == Get(rows[n], col).value)
    {
      var i :| 0 <= i < |rows| && Get(rows[i], col).Some? && Get(rows[i], col).value == v;
      if i < n {
        assert rows[..n][i] == rows[i];
      }
    }
    forall v | v in front
      ensures v in PresentValues(rows, col)
    {
      var i :| 0 <= i < n && Get(rows[..n][i], col).Some? && Get(rows[..n][i], col).value == v;
      assert rows[..n][i] == rows[i];
      assert Get(rows[i], col).value in PresentValues(rows, col);
    }
    if Get(rows[n], col).Some? {
      assert Get(rows[n], col).value in PresentValues(rows, col);
    }
  }

  /** Orphans are counted once per distinct value, so never more than the distinct foreign keys or the rows holding one. */
  lemma OrphansBounded(child: Table, parent: Table, rule: ForeignKey)
    ensures |Orphans(child, parent, rule)| <= |PresentValues(child.rows, rule.fk)|
    ensures |PresentValues(child.rows, rule.fk)| <= |child.rows|
  {
    PresentValuesBounded(child.rows, rule.fk);
  }

  function ForeignKeyEntries(tables: map<string, Table>): (e: seq<Entry>)
    ensures |e| == |ForeignKeys|
    ensures forall j :: 0 <= j < |e| ==> e[j] == (RuleName(ForeignKeys[j]), OrphanProbe(tables, ForeignKeys[j]))
  {
    seq(|ForeignKeys|, j requires 0 <= j < |ForeignKeys| =>
      (RuleName(ForeignKeys[j]), OrphanProbe(tables, ForeignKeys[j])))
  }

  lemma RuleNamesDistinct()
    ensures forall i, j :: 0 <= i < j < |ForeignKeys| ==> RuleName(ForeignKeys[i]) != RuleName(ForeignKeys[j])
  {
    var n := seq(5, j requires 0 <= j < 5 => RuleName(ForeignKeys[j]));
    assert |n[0]| == 39 && |n[1]| == 48 && |n[2]| == 53 && |n[3]| == 39 && |n[4]| == 49;
    assert n[0][5] != n[3][5];
  }

  /**
   * check_referential_integrity: an entry for every rule whose two tables
   * and two columns exist, holding the number of distinct orphaned values.
   */
  function CheckReferentialIntegrity(tables: map<string, Table>): (r: Result<map<string, int>>)
    ensures r.Ok?
    ensures forall j :: 0 <= j < |ForeignKeys| ==> var rule := ForeignKeys[j];
      (RuleName(rule) in r.value <==>
        rule.child in tables && rule.parent in tables
        && rule.fk in tables[rule.child].cols && rule.pk in tables[rule.parent].cols)
    ensures forall j :: 0 <= j < |ForeignKeys| && RuleName(ForeignKeys[j]) in r.value ==>
      var rule := ForeignKeys[j];
      rule.child in tables && rule.parent in tables &&
      r.value[RuleName(rule)] == |Orphans(tables[rule.child], tables[rule.parent], rule)|
  {
    RuleNamesDistinct();
    Collect(ForeignKeyEntries(tables))
  }

  /** Every applicable rule resolves; a rule whose table or column is absent is no failure. */
  predicate ForeignKeysHold(tables: map<string, Table>) {
    forall j :: 0 <= j < |ForeignKeys| ==> var rule := ForeignKeys[j];
      (rule.child in tables && rule.parent in tables
       && rule.fk in tables[rule.child].cols && rule.pk in tables[rule.parent].cols) ==>
      Resolves(tables[rule.child], tables[rule.parent], rule)
  }

  lemma ForeignKeysFamilyPasses(tables: map<string, Table>)
    ensures !FamilyFailed(CheckReferentialIntegrity(tables)) <==> ForeignKeysHold(tables)
  {
    RuleNamesDistinct();
    var e := ForeignKeyEntries(tables);
    CollectFails(e);
    forall j | 0 <= j < |ForeignKeys|
      ensures Fails(e[j].1) <==> var rule := ForeignKeys[j];
        (rule.child in tables && rule.parent in tables
         && rule.fk in tables[rule.child].cols && rule.pk in tables[rule.parent].cols)
        && !Resolves(tables[rule.child], tables[rule.parent], rule)
    {
      var rule := ForeignKeys[j];
      if rule.child in tables && rule.parent in tables {
        OrphansEmptyIff(tables[rule.child], tables[rule.parent], rule);
      }
    }
  }

  // ---------------------------------------------------------------------
  // check_date_ranges

  const DateColumns: seq<ColumnRef> := [
    ColumnRef("dim_users", "signup_date"), ColumnRef("fact_orders", "order_date"),
    ColumnRef("fact_events", "event_timestamp"), ColumnRef("fact_reviews", "review_date")]

  /** Coercing some cell of a present date column raises. */
  predicate DateColumnRaises(lib: Library, tables: map<string, Table>, ref: ColumnRef) {
    && ref.table in tables && ref.col in tables[ref.table].cols
    && exists i :: 0 <= i < |tables[ref.table].rows| && DatetimeRaises(lib, Get(tables[ref.table].rows[i], ref.col))
  }

  /** The cell, once coerced to a timestamp, lies after midnight at the start of day `today`. */
  predicate IsFuture(lib: Library, today: int, x: Cell) {
    var y := ToDatetime(lib, x);
    y.Some? && Later(y.value.t, Midnight(today))
  }

  function FutureRows(lib: Library, today: int, rows: seq<Row>, col: string): set<int> {
    set i | 0 <= i < |rows| && IsFuture(lib, today, Get(rows[i], col))
  }

  /**
   * A table's entry: -1 when the date column is absent, an exception when
   * the coercion raises on a cell, else the number of future dates.
   */
  function FutureDateProbe(lib: Library, today: int, t: Table, col: string): (o: Outcome)
    ensures !o.Skip?
    ensures col !in t.cols ==> o == Report(-1)
    ensures col in t.cols ==>
      (o.Raise? <==> exists i :: 0 <= i < |t.rows| && DatetimeRaises(lib, Get(t.rows[i], col)))
    ensures col in t.cols && o.Report? ==> o.n == |FutureRows(lib, today, t.rows, col)|
  {
    if col !in t.cols then Report(-1)
    else if exists i :: 0 <= i < |t.rows| && DatetimeRaises(lib, Get(t.rows[i], col)) then Raise(CoercionError(col))
    else
      var p: Row -> bool := r => IsFuture(lib, today, Get(r, col));
      CountIsCardinality(t.rows, p);
      assert Matching(t.rows, p) == FutureRows(lib, today, t.rows, col);
      Report(Count(t.rows, p))
  }

  function DateEntries(lib: Library, today: int, tables: map<string, Table>): (e: seq<Entry>)
    ensures |e| == |DateColumns|
    ensures forall j :: 0 <= j < |e| ==> e[j].0 == DateColumns[j].table
  {
    seq(|DateColumns|, j requires 0 <= j < |DateColumns| =>
      var ref := DateColumns[j];
      (ref.table, if ref.table in tables then FutureDateProbe(lib, today, tables[ref.table], ref.col) else Skip))
  }

  lemma DateColumnsDistinct()
    ensures forall i, j :: 0 <= i < j < |DateColumns| ==> DateColumns[i].table != DateColumns[j].table
  {
  }

  /**
   * check_date_ranges: raises when a coercion raises; otherwise an entry for
   * every listed table that is present, -1 when its date column is absent,
   * else its number of dates after the start of `today`.
   */
  function CheckDateRanges(lib: Library, today: int, tables: map<string, Table>): (r: Result<map<string, int>>)
    ensures r.Err? <==> exists j :: 0 <= j < |DateColumns| && DateColumnRaises(lib, tables, DateColumns[j])
    ensures r.Ok? ==> forall j :: 0 <= j < |DateColumns| ==> (DateColumns[j].table in r.value <==> DateColumns[j].table in tables)
    ensures r.Ok? ==> forall j :: 0 <= j < |DateColumns| && DateColumns[j].table in tables ==>
      var t := tables[DateColumns[j].table];
      r.value[DateColumns[j].table] ==
        if DateColumns[j].col in t.cols then |FutureRows(lib, today, t.rows, DateColumns[j].col)| else -1
  {
    DateColumnsDistinct();
    var e := DateEntries(lib, today, tables);
    var r := Collect(e);
    assert r.Err? <==> exists j :: 0 <= j < |DateColumns| && e[j].1.Raise?;
    r
  }

  /** No date column that is present raises or holds a future date. */
  predicate DatesHold(lib: Library, today: int, tables: map<string, Table>) {
    forall j :: 0 <= j < |DateColumns| && DateColumns[j].table in tables
                && DateColumns[j].col in tables[DateColumns[j].table].cols ==>
      var rows := tables[DateColumns[j].table].rows;
      && (forall i :: 0 <= i < |rows| ==> !DatetimeRaises(lib, Get(rows[i], DateColumns[j].col)))
      && FutureRows(lib, today, rows, DateColumns[j].col) == {}
  }

  /** A present date column fails when it is present and a cell raises or holds a future date. */
  predicate DateColumnFails(lib: Library, today: int, tables: map<string, Table>, ref: ColumnRef) {
    && ref.table in tables && ref.col in tables[ref.table].cols
    && var rows := tables[ref.table].rows;
       !((forall i :: 0 <= i < |rows| ==> !DatetimeRaises(lib, Get(rows[i], ref.col)))
         && FutureRows(lib, today, rows, ref.col) == {})
  }

  lemma DateEntryFails(lib: Library, today: int, tables: map<string, Table>, j: int)
    requires 0 <= j < |DateColumns|
    ensures Fails(DateEntries(lib, today, tables)[j].1) <==> DateColumnFails(lib, today, tables, DateColumns[j])
  {
  }

  lemma DatesFamilyPasses(lib: Library, today: int, tables: map<string, Table>)
    ensures !FamilyFailed(CheckDateRanges(lib, today, tables)) <==> DatesHold(lib, today, tables)
  {
    DateColumnsDistinct();
    var e := DateEntries(lib, today, tables);
    CollectFails(e);
    forall j | 0 <= j < |DateColumns|
      ensures Fails(e[j].1) <==> DateColumnFails(lib, today, tables, DateColumns[j])
    {
      DateEntryFails(lib, today, tables, j);
    }
  }

  // ---------------------------------------------------------------------
  // check_numeric_ranges

  /** The valid domains: at least zero, or strictly positive. */
  datatype Bound = AtLeastZero | AboveZero

  predicate InBound(b: Bound, x: real) {
    match b
    case AtLeastZero => x >= 0.0
    case AboveZero => x > 0.0
  }

  datatype RangeCheck = RangeCheck(ref: ColumnRef, bound: Bound)

  const RangeChecks: seq<RangeCheck> := [
    RangeCheck(ColumnRef("dim_products", "price"), AtLeastZero),
    RangeCheck(ColumnRef("fact_orders", "total_amount"), AtLeastZero),
    RangeCheck(ColumnRef("fact_order_items", "quantity"), AboveZero),
    RangeCheck(ColumnRef("fact_order_items", "item_price"), AtLeastZero)]

  /** The result key of a range check: `table.col`. */
  function CheckName(ref: ColumnRef): string {
    ref.table + "." + ref.col
  }

  /** Coercing some cell of a present checked column raises. */
  predicate RangeColumnRaises(lib: Library, tables: map<string, Table>, ref: ColumnRef) {
    && ref.table in tables && ref.col in tables[ref.table].cols
    && exists i :: 0 <= i < |tables[ref.table].rows| && NumericRaises(lib, Get(tables[ref.table].rows[i], ref.col))
  }

  /** The cell, once coerced to a number, is present and outside its domain. */
  predicate OutOfBound(lib: Library, b: Bound, x: Cell) {
    var y := ToNumeric(lib, x);
    y.Some? && !InBound(b, y.value.x)
  }

  function OutOfBoundRows(lib: Library, b: Bound, rows: seq<Row>, col: string): set<int> {
    set i | 0 <= i < |rows| && OutOfBound(lib, b, Get(rows[i], col))
  }

  /**
   * A range check's entry: skipped when the column is absent, an exception
   * when the coercion raises on a cell, else the number of present values
   * outside the domain.
   */
  function RangeProbe(lib: Library, t: Table, check: RangeCheck): (o: Outcome)
    ensures o.Skip? <==> check.ref.col !in t.cols
    ensures check.ref.col in t.cols ==>
      (o.Raise? <==> exists i :: 0 <= i < |t.rows| && NumericRaises(lib, Get(t.rows[i], check.ref.col)))
    ensures o.Report? ==> o.n == |OutOfBoundRows(lib, check.bound, t.rows, check.ref.col)|
  {
    var col := check.ref.col;
    if col !in t.cols then Skip
    else if exists i :: 0 <= i < |t.rows| && NumericRaises(lib, Get(t.rows[i], col)) then Raise(CoercionError(col))
    else
      var p: Row -> bool := r => OutOfBound(lib, check.bound, Get(r, col));
      CountIsCardinality(t.rows, p);
      assert Matching(t.rows, p) == OutOfBoundRows(lib, check.bound, t.rows, col);
      Report(Count(t.rows, p))
  }

  function RangeEntries(lib: Library, tables: map<string, Table>): (e: seq<Entry>)
    ensures |e| == |RangeChecks|
    ensures forall j :: 0 <= j < |e| ==> e[j].0 == CheckName(RangeChecks[j].ref)
  {
    seq(|RangeChecks|, j requires 0 <= j < |RangeChecks| =>
      var check := RangeChecks[j];
      (CheckName(check.ref), if check.ref.table in tables then RangeProbe(lib, tables[check.ref.table], check) else Skip))
  }

  lemma CheckNamesDistinct()
    ensures forall i, j :: 0 <= i < j < |RangeChecks| ==> CheckName(RangeChecks[i].ref) != CheckName(RangeChecks[j].ref)
  {
    var n := seq(4, j requires 0 <= j < 4 => CheckName(RangeChecks[j].ref));
    assert |n[0]| == 18 && |n[1]| == 24 && |n[2]| == 25 && |n[3]| == 27;
  }

  /**
   * check_numeric_ranges: raises when a coercion raises; otherwise an entry
   * for every check whose table and column exist, holding the number of
   * present values outside the domain.
   */
  function CheckNumericRanges(lib: Library, tables: map<string, Table>): (r: Result<map<string, int>>)
    ensures r.Err? <==> exists j :: 0 <= j < |RangeChecks| && RangeColumnRaises(lib, tables, RangeChecks[j].ref)
    ensures r.Ok? ==> forall j :: 0 <= j < |RangeChecks| ==> var ref := RangeChecks[j].ref;
      (CheckName(ref) in r.value <==> ref.table in tables && ref.col in tables[ref.table].cols)
    ensures r.Ok? ==> forall j :: 0 <= j < |RangeChecks| && CheckName(RangeChecks[j].ref) in r.value ==>
      var ref := RangeChecks[j].ref;
      ref.table in tables &&
      r.value[CheckName(ref)] == |OutOfBoundRows(lib, RangeChecks[j].bound, tables[ref.table].rows, ref.col)|
  {
    CheckNamesDistinct();
    var e := RangeEntries(lib, tables);
    var r := Collect(e);
    assert r.Err? <==> exists j :: 0 <= j < |RangeChecks| && e[j].1.Raise?;
    r
  }

  /** No checked column that is present raises or holds a value outside its domain. */
  predicate RangesHold(lib: Library, tables: map<string, Table>) {
    forall j :: 0 <= j < |RangeChecks| && RangeChecks[j].ref.table in tables
                && RangeChecks[j].ref.col in tables[RangeChecks[j].ref.table].cols ==>
      var rows := tables[RangeChecks[j].ref.table].rows;
      var col := RangeChecks[j].ref.col;
      && (forall i :: 0 <= i < |rows| ==> !NumericRaises(lib, Get(rows[i], col)))
      && OutOfBoundRows(lib, RangeChecks[j].bound, rows, col) == {}
  }

  /** A checked column fails when it is present and a cell raises or holds a value outside its domain. */
  predicate RangeColumnFails(lib: Library, tables: map<string, Table>, check: RangeCheck) {
    && check.ref.table in tables && check.ref.col in tables[check.ref.table].cols
    && var rows := tables[check.ref.table].rows;
       !((forall i :: 0 <= i < |rows| ==> !NumericRaises(lib, Get(rows[i], check.ref.col)))
         && OutOfBoundRows(lib, check.bound, rows, check.ref.col) == {})
  }

  lemma RangeEntryFails(lib: Library, tables: map<string, Table>, j: int)
    requires 0 <= j < |RangeChecks|
    ensures Fails(RangeEntries(lib, tables)[j].1) <==> RangeColumnFails(lib, tables, RangeChecks[j])
  {
  }

  lemma RangesFamilyPasses(lib: Library, tables: map<string, Table>)
    ensures !FamilyFailed(CheckNumericRanges(lib, tables)) <==> RangesHold(lib, tables)
  {
    CheckNamesDistinct();
    var e := RangeEntries(lib, tables);
    CollectFails(e);
    forall j | 0 <= j < |RangeChecks|
      ensures Fails(e[j].1) <==> RangeColumnFails(lib, tables, RangeChecks[j])
    {
      RangeEntryFails(lib, tables, j);
    }
  }

  // ---------------------------------------------------------------------
  // validate_all

  /** Every family passes: nothing raised and no count is positive. */
  predicate AllPassed(lib: Library, today: int, tables: map<string, Table>) {
    && !FamilyFailed(CheckNullPrimaryKeys(tables))
    && !FamilyFailed(CheckReferentialIntegrity(tables))
    && !FamilyFailed(CheckDateRanges(lib, today, tables))
    && !FamilyFailed(CheckNumericRanges(lib, tables))
  }

  /**
   * The data is clean: no present key column has a missing key, every
   * applicable foreign key resolves, and no present date or range column
   * raises or violates its bound.  Absent tables and columns never matter.
   */
  predicate DataClean(lib: Library, today: int, tables: map<string, Table>) {
    && PrimaryKeysHold(tables) && ForeignKeysHold(tables)
    && DatesHold(lib, today, tables) && RangesHold(lib, tables)
  }

  /**
   * The four families all pass exactly when the data is clean; the -1
   * entries never fail, and an exception in one family does not stop the
   * others from running.
   */
  lemma AllPassedMeaning(lib: Library, today: int, tables: map<string, Table>)
    ensures AllPassed(lib, today, tables) <==> DataClean(lib, today, tables)
  {
    NullKeysFamilyPasses(tables);
    ForeignKeysFamilyPasses(tables);
    DatesFamilyPasses(lib, today, tables);
    RangesFamilyPasses(lib, tables);
  }

  /**
   * validate_all: whether the data is clean, or `ValidationError` when
   * `failOnError` is set and it is not.
   */
  function ValidateAll(lib: Library, today: int, tables: map<string, Table>, failOnError: bool): (r: Result<bool>)
    ensures r.Err? <==> failOnError && !DataClean(lib, today, tables)
    ensures r.Err? ==> r.error == ValidationError
    ensures r.Ok? ==> (r.value <==> DataClean(lib, today, tables))
  {
    AllPassedMeaning(lib, today, tables);
    var passed := AllPassed(lib, today, tables);
    if failOnError && !passed then Err(ValidationError) else Ok(passed)
  }
}

=== FILE: warehouse.dfy ===
/**
 * The warehouse phase: each staged table is copied into a dimension or fact
 * table, three of them gaining derived columns.  Builders never drop,
 * reorder or add rows; they only write the columns they derive.
 */
module Warehouse {
  import opened Tables
  import Calendar
  import opened Jobs

  /** `out` is `rows` with at most the columns `written` changed, row for row. */
  ghost predicate OnlyWrites(rows: seq<Row>, out: seq<Row>, written: set<string>) {
    && |out| == |rows|
    && forall k, c :: 0 <= k < |rows| && c !in written ==> Get(out[k], c) == Get(rows[k], c)
  }

  /** The `.dt` accessor works on column `c`: every present cell is a timestamp. */
  predicate DatetimeLike(rows: seq<Row>, c: string) {
    forall i :: 0 <= i < |rows| ==> Get(rows[i], c).None? || Get(rows[i], c).value.Time?
  }

  // ---------------------------------------------------------------------
  // build_dim_users

  /** `.dt.year` of one cell. */
  function DtYear(x: Cell): (r: Cell)
    ensures r.Some? <==> x.Some? && x.value.Time?
    ensures r.Some? ==> exists c :: Calendar.IsDateOf(c, x.value.t.day) && r.value == Num(c.year as real)
  {
    match x
    case Some(Time(ts)) =>
      var c := Calendar.CivilFromDays(ts.day);
      assert Calendar.IsDateOf(c, ts.day);
      Some(Num(c.year as real))
    case _ => None
  }

  /** `.dt.month` of one cell. */
  function DtMonth(x: Cell): (r: Cell)
    ensures r.Some? <==> x.Some? && x.value.Time?
    ensures r.Some? ==> exists c :: Calendar.IsDateOf(c, x.value.t.day) && r.value == Num(c.month as real)
  {
    match x
    case Some(Time(ts)) =>
      var c := Calendar.CivilFromDays(ts.day);
      assert Calendar.IsDateOf(c, ts.day);
      Some(Num(c.month as real))
    case _ => None
  }

  function AddSignupParts(r: Row): Row {
    r["signup_year" := DtYear(Get(r, "signup_date"))]["signup_month" := DtMonth(Get(r, "signup_date"))]
  }

  /**
   * The year and month cells name the calendar date the timestamp falls on,
   * and both are missing when the timestamp is.
   */
  ghost predicate SignupParts(date: Cell, year: Cell, month: Cell) {
    match date
    case Some(Time(ts)) =>
      exists c: Calendar.Civil :: Calendar.IsDateOf(c, ts.day)
        && year == Some(Num(c.year as real)) && month == Some(Num(c.month as real))
    case _ => year.None? && month.None?
  }

  lemma AddSignupPartsMeaning(r: Row)
    requires Get(r, "signup_date").None? || Get(r, "signup_date").value.Time?
    ensures SignupParts(Get(r, "signup_date"), Get(AddSignupParts(r), "signup_year"),
                        Get(AddSignupParts(r), "signup_month"))
  {
    if Get(r, "signup_date").Some? {
      var c := Calendar.CivilFromDays(Get(r, "signup_date").value.t.day);
      assert Calendar.IsDateOf(c, Get(r, "signup_date").value.t.day);
    }
  }

  /** build_dim_users: `signup_year` and `signup_month` derived from `signup_date`. */
  function BuildDimUsers(t: Table): (r: Result<Table>)
    ensures r.Ok? <==> "signup_date" in t.cols && DatetimeLike(t.rows, "signup_date")
    ensures "signup_date" !in t.cols ==> r == Err(KeyError("signup_date"))
    ensures "signup_date" in t.cols && r.Err? ==> r.error == AttributeError("signup_date")
    ensures r.Ok? ==> r.value.cols == AddColumn(AddColumn(t.cols, "signup_year"), "signup_month")
    ensures r.Ok? ==> OnlyWrites(t.rows, r.value.rows, {"signup_year", "signup_month"})
    ensures r.Ok? ==> forall k :: 0 <= k < |t.rows| ==>
      SignupParts(Get(t.rows[k], "signup_date"),
                  Get(r.value.rows[k], "signup_year"), Get(r.value.rows[k], "signup_month"))
  {
    if "signup_date" !in t.cols then Err(KeyError("signup_date"))
    else if !DatetimeLike(t.rows, "signup_date") then Err(AttributeError("signup_date"))
    else
      var out := MapRows(t.rows, AddSignupParts);
      assert forall k :: 0 <= k < |t.rows| ==>
        SignupParts(Get(t.rows[k], "signup_date"), Get(out[k], "signup_year"), Get(out[k], "signup_month"))
      by {
        forall k | 0 <= k < |t.rows| {
          AddSignupPartsMeaning(t.rows[k]);
        }
      }
      Ok(Table(AddColumn(AddColumn(t.cols, "signup_year"), "signup_month"), out))
  }

  /** The derived year and month are those of ANY calendar date with the timestamp's day number. */
  lemma SignupYearMonthOfDate(t: Table, k: int, c: Calendar.Civil)
    requires BuildDimUsers(t).Ok?
    requires 0 <= k < |t.rows| && Calendar.ValidCivil(c)
    requires Get(t.rows[k], "signup_date").Some? && Get(t.rows[k], "signup_date").value.Time?
    requires Get(t.rows[k], "signup_date").value.t.day == Calendar.DaysFromCivil(c)
    ensures Get(BuildDimUsers(t).value.rows[k], "signup_year") == Some(Num(c.year as real))
    ensures Get(BuildDimUsers(t).value.rows[k], "signup_month") == Some(Num(c.month as real))
  {
    var out := BuildDimUsers(t).value.rows;
    var ts := Get(t.rows[k], "signup_date").value.t;
    assert SignupParts(Get(t.rows[k], "signup_date"), Get(out[k], "signup_year"), Get(out[k], "signup_month"));
    var c' :| Calendar.IsDateOf(c', ts.day)
      && Get(out[k], "signup_year") == Some(Num(c'.year as real))
      && Get(out[k], "signup_month") == Some(Num(c'.month as real));
    Calendar.DaysFromCivilInjective(c, c');
  }

  // ---------------------------------------------------------------------
  // build_fact_order_items

  /** Series multiplication is defined on numeric or missing operands. */
  predicate Multipliable(q: Cell, p: Cell) {
    (q.None? || q.value.Num?) && (p.None? || p.value.Num?)
  }

  /** `quantity * item_price` for one row: missing when either factor is. */
  function Times(q: Cell, p: Cell): Cell {
    if q.Some? && q.value.Num? && p.Some? && p.value.Num? then Some(Num(q.value.x * p.value.x))
    else None
  }

  /** The row's `item_total` is computed: the column is absent, or this row's total is missing. */
  predicate NeedsTotal(cols: seq<string>, r: Row) {
    "item_total" !in cols || Get(r, "item_total").None?
  }

  function FillTotal(cols: seq<string>, r: Row): Row {
    if NeedsTotal(cols, r) then r["item_total" := Times(Get(r, "quantity"), Get(r, "item_price"))]
    else r
  }

  function MissingTotals(rows: seq<Row>): nat {
    Count(rows, r => Get(r, "item_total").None?)
  }

  /**
   * build_fact_order_items: an existing `item_total` is kept wherever present
   * and filled with quantity × price where missing; an absent `item_total`
   * column is created from quantity × price for every row.
   */
  function BuildFactOrderItems(t: Table): (r: Result<Table>)
    ensures r.Ok? <==>
      || ("item_total" in t.cols && forall i :: 0 <= i < |t.rows| ==> Get(t.rows[i], "item_total").Some?)
      || ("quantity" in t.cols && "item_price" in t.cols
          && forall i :: 0 <= i < |t.rows| && NeedsTotal(t.cols, t.rows[i]) ==>
               Multipliable(Get(t.rows[i], "quantity"), Get(t.rows[i], "item_price")))
    ensures r.Err? && "quantity" !in t.cols ==> r.error == KeyError("quantity")
    ensures r.Err? && "quantity" in t.cols && "item_price" !in t.cols ==> r.error == KeyError("item_price")
    ensures r.Ok? ==> r.value.cols == AddColumn(t.cols, "item_total")
    ensures r.Ok? ==> OnlyWrites(t.rows, r.value.rows, {"item_total"})
    ensures r.Ok? ==> forall k :: 0 <= k < |t.rows| && !NeedsTotal(t.cols, t.rows[k]) ==>
      r.value.rows[k] == t.rows[k]
    ensures r.Ok? ==> forall k :: 0 <= k < |t.rows| && NeedsTotal(t.cols, t.rows[k]) ==>
      Get(r.value.rows[k], "item_total") == Times(Get(t.rows[k], "quantity"), Get(t.rows[k], "item_price"))
    ensures r.Ok? ==> forall k :: 0 <= k < |t.rows| ==>
      (Get(r.value.rows[k], "item_total").None? <==>
        NeedsTotal(t.cols, t.rows[k])
        && (Get(t.rows[k], "quantity").None? || Get(t.rows[k], "item_price").None?))
  {
    var p: Row -> bool := r => Get(r, "item_total").None?;
    CountZeroIff(t.rows, p);
    if "item_total" in t.cols && MissingTotals(t.rows) == 0 then Ok(t)
    else if "quantity" !in t.cols then Err(KeyError("quantity"))
    else if "item_price" !in t.cols then Err(KeyError("item_price"))
    else if exists i :: 0 <= i < |t.rows| && NeedsTotal(t.cols, t.rows[i])
                        && !Multipliable(Get(t.rows[i], "quantity"), Get(t.rows[i], "item_price"))
    then Err(TypeError("item_total"))
    else Ok(Table(AddColumn(t.cols, "item_total"), MapRows(t.rows, r => FillTotal(t.cols, r))))
  }

  /** Filling totals twice fills nothing new. */
  lemma BuildFactOrderItemsIdempotent(t: Table)
    requires BuildFactOrderItems(t).Ok?
    ensures BuildFactOrderItems(BuildFactOrderItems(t).value) == BuildFactOrderItems(t)
  {
    var u := BuildFactOrderItems(t).value;
    if "item_total" in t.cols && MissingTotals(t.rows) == 0 {
      assert u == t;
    } else {
      assert u.rows == MapRows(t.rows, r => FillTotal(t.cols, r));
      assert "item_total" in u.cols;
      forall k | 0 <= k < |u.rows|
        ensures FillTotal(u.cols, u.rows[k]) == u.rows[k]
      {
        assert u.rows[k] == FillTotal(t.cols, t.rows[k]);
      }
      assert MapRows(u.rows, r => FillTotal(u.cols, r)) == u.rows;
    }
  }

  // ---------------------------------------------------------------------
  // build_fact_events

  /** `.dt.date` of one cell. */
  function DtDate(x: Cell): (r: Cell)
    ensures r.Some? <==> x.Some? && x.value.Time?
    ensures r.Some? ==>
      r.value.Date? && !Later(Midnight(r.value.day), x.value.t) && Later(Midnight(r.value.day + 1), x.value.t)
  {
    match x
    case Some(Time(ts)) => Some(Date(ts.day))
    case _ => None
  }

  /** `.dt.hour` of one cell. */
  function DtHour(x: Cell): (r: Cell)
    ensures r.Some? <==> x.Some? && x.value.Time?
    ensures r.Some? ==>
      r.value.Num? && var h := r.value.x;
      && h == h.Floor as real
      && 0 <= h.Floor < 24
      && h.Floor * NanosPerHour <= x.value.t.nanos < (h.Floor + 1) * NanosPerHour
  {
    match x
    case Some(Time(ts)) =>
      var h := ts.nanos / NanosPerHour;
      assert (h as real).Floor == h;
      Some(Num(h as real))
    case _ => None
  }

  function AddEventParts(r: Row): Row {
    r["event_date" := DtDate(Get(r, "event_timestamp"))]["event_hour" := DtHour(Get(r, "event_timestamp"))]
  }

  /** The date cell is the timestamp's day and the hour cell the whole hour of the day it falls in. */
  predicate EventParts(stamp: Cell, date: Cell, hour: Cell) {
    match stamp
    case Some(Time(ts)) =>
      && date == Some(Date(ts.day))
      && hour.Some? && hour.value.Num?
      && var h := hour.value.x;
         && h == h.Floor as real
         && 0 <= h.Floor < 24
         && h.Floor * NanosPerHour <= ts.nanos < (h.Floor + 1) * NanosPerHour
    case _ => date.None? && hour.None?
  }

  lemma AddEventPartsMeaning(r: Row)
    requires Get(r, "event_timestamp").None? || Get(r, "event_timestamp").value.Time?
    ensures EventParts(Get(r, "event_timestamp"), Get(AddEventParts(r), "event_date"),
                       Get(AddEventParts(r), "event_hour"))
  {
    if Get(r, "event_timestamp").Some? {
      var n := Get(r, "event_timestamp").value.t.nanos;
      var h := n / NanosPerHour;
      assert (h as real).Floor == h;
    }
  }

  /** build_fact_events: `event_date` and `event_hour` derived from `event_timestamp`. */
  function BuildFactEvents(t: Table): (r: Result<Table>)
    ensures r.Ok? <==> "event_timestamp" in t.cols && DatetimeLike(t.rows, "event_timestamp")
    ensures "event_timestamp" !in t.cols ==> r == Err(KeyError("event_timestamp"))
    ensures "event_timestamp" in t.cols && r.Err? ==> r.error == AttributeError("event_timestamp")
    ensures r.Ok? ==> r.value.cols == AddColumn(AddColumn(t.cols, "event_date"), "event_hour")
    ensures r.Ok? ==> OnlyWrites(t.rows, r.value.rows, {"event_date", "event_hour"})
    ensures r.Ok? ==> forall k :: 0 <= k < |t.rows| ==>
      EventParts(Get(t.rows[k], "event_timestamp"),
                 Get(r.value.rows[k], "event_date"), Get(r.value.rows[k], "event_hour"))
  {
    if "event_timestamp" !in t.cols then Err(KeyError("event_timestamp"))
    else if !DatetimeLike(t.rows, "event_timestamp") then Err(AttributeError("event_timestamp"))
    else
      var out := MapRows(t.rows, AddEventParts);
      assert forall k :: 0 <= k < |t.rows| ==>
        EventParts(Get(t.rows[k], "event_timestamp"), Get(out[k], "event_date"), Get(out[k], "event_hour"))
      by {
        forall k | 0 <= k < |t.rows| {
          AddEventPartsMeaning(t.rows[k]);
        }
      }
      Ok(Table(AddColumn(AddColumn(t.cols, "event_date"), "event_hour"), out))
  }

  // ---------------------------------------------------------------------
  // build_warehouse

  /** The six builders; products, orders and reviews are plain copies. */
  datatype Builder = DimUsers | DimProducts | FactOrders | FactOrderItems | FactEvents | FactReviews

  function Build(b: Builder, t: Table): (r: Result<Table>)
    ensures r.Ok? ==> |r.value.rows| == |t.rows|
    ensures b in {DimProducts, FactOrders, FactReviews} ==> r == Ok(t)
  {
    match b
    case DimUsers => BuildDimUsers(t)
    case FactOrderItems => BuildFactOrderItems(t)
    case FactEvents => BuildFactEvents(t)
    case _ => Ok(t)
  }

  /** The calls `build_warehouse` makes, in order: staged table, warehouse name, builder. */
  const Targets: seq<Job<Builder>> := [
    Job("users", "dim_users", DimUsers), Job("products", "dim_products", DimProducts),
    Job("orders", "fact_orders", FactOrders), Job("order_items", "fact_order_items", FactOrderItems),
    Job("events", "fact_events", FactEvents), Job("reviews", "fact_reviews", FactReviews)]

  const TargetNames: set<string> :=
    {"dim_users", "dim_products", "fact_orders", "fact_order_items", "fact_events", "fact_reviews"}

  lemma TargetsAreDistinct()
    ensures DistinctOutputs(Targets)
    ensures Outputs(Targets) == TargetNames
  {
    assert Outputs(Targets) == {Targets[0].output, Targets[1].output, Targets[2].output,
                                Targets[3].output, Targets[4].output, Targets[5].output};
  }

  /** build_warehouse: the six warehouse tables; the first failure propagates. */
  function BuildWarehouse(stg: map<string, Table>): (r: Result<map<string, Table>>)
    ensures r.Ok? ==> r.value.Keys == TargetNames
  {
    TargetsAreDistinct();
    RunJobs(Build, stg, Targets)
  }

  /** The six staged tables `build_warehouse` reads are all present. */
  predicate HasStagedTables(stg: map<string, Table>) {
    && "users" in stg && "products" in stg && "orders" in stg
    && "order_items" in stg && "events" in stg && "reviews" in stg
  }

  /**
   * `build_warehouse` succeeds exactly when the six staged tables exist and
   * the three deriving builders succeed; a missing `users` table is the
   * first exception.
   */
  lemma BuildWarehouseSucceeds(stg: map<string, Table>)
    ensures BuildWarehouse(stg).Ok? <==>
      && HasStagedTables(stg)
      && BuildDimUsers(stg["users"]).Ok?
      && BuildFactOrderItems(stg["order_items"]).Ok?
      && BuildFactEvents(stg["events"]).Ok?
    ensures "users" !in stg ==> BuildWarehouse(stg) == Err(KeyError("users"))
  {
    TargetsAreDistinct();
    TargetsAre();
    if BuildWarehouse(stg).Ok? {
      BuildWarehouseTables(stg);
    } else if HasStagedTables(stg) {
      if BuildDimUsers(stg["users"]).Ok? && BuildFactOrderItems(stg["order_items"]).Ok?
         && BuildFactEvents(stg["events"]).Ok? {
        forall j | 0 <= j < |Targets|
          ensures JobOk(Build, stg, Targets[j])
        {
          TargetOk(stg, j);
        }
      }
    }
    if "users" !in stg {
      FirstJobFails(Build, stg, Targets);
    }
  }

  lemma TargetOk(stg: map<string, Table>, j: int)
    requires HasStagedTables(stg)
    requires BuildDimUsers(stg["users"]).Ok? && BuildFactOrderItems(stg["order_items"]).Ok?
    requires BuildFactEvents(stg["events"]).Ok?
    requires 0 <= j < |Targets|
    ensures JobOk(Build, stg, Targets[j])
  {
    TargetsAre();
    TargetRuns(stg, j);
  }

  lemma TargetsAre()
    ensures Targets[0] == Job("users", "dim_users", DimUsers)
    ensures Targets[1] == Job("products", "dim_products", DimProducts)
    ensures Targets[2] == Job("orders", "fact_orders", FactOrders)
    ensures Targets[3] == Job("order_items", "fact_order_items", FactOrderItems)
    ensures Targets[4] == Job("events", "fact_events", FactEvents)
    ensures Targets[5] == Job("reviews", "fact_reviews", FactReviews)
  {
  }

  /** Each warehouse table is its builder's result; products, orders and reviews are copied as is. */
  lemma BuildWarehouseTables(stg: map<string, Table>)
    requires BuildWarehouse(stg).Ok?
    ensures var w := BuildWarehouse(stg).value;
      && "users" in stg && BuildDimUsers(stg["users"]).Ok?
      && "dim_users" in w && w["dim_users"] == BuildDimUsers(stg["users"]).value
    ensures var w := BuildWarehouse(stg).value;
      "products" in stg && "dim_products" in w && w["dim_products"] == stg["products"]
    ensures var w := BuildWarehouse(stg).value;
      "orders" in stg && "fact_orders" in w && w["fact_orders"] == stg["orders"]
    ensures var w := BuildWarehouse(stg).value;
      && "order_items" in stg && BuildFactOrderItems(stg["order_items"]).Ok?
      && "fact_order_items" in w && w["fact_order_items"] == BuildFactOrderItems(stg["order_items"]).value
    ensures var w := BuildWarehouse(stg).value;
      && "events" in stg && BuildFactEvents(stg["events"]).Ok?
      && "fact_events" in w && w["fact_events"] == BuildFactEvents(stg["events"]).value
    ensures var w := BuildWarehouse(stg).value;
      "reviews" in stg && "fact_reviews" in w && w["fact_reviews"] == stg["reviews"]
  {
    TargetsAreDistinct();
    TargetsAre();
    JobOutput(Build, stg, Targets, 0);
    TargetRuns(stg, 0);
    JobOutput(Build, stg, Targets, 1);
    TargetRuns(stg, 1);
    JobOutput(Build, stg, Targets, 2);
    TargetRuns(stg, 2);
    JobOutput(Build, stg, Targets, 3);
    TargetRuns(stg, 3);
    JobOutput(Build, stg, Targets, 4);
    TargetRuns(stg, 4);
    JobOutput(Build, stg, Targets, 5);
    TargetRuns(stg, 5);
  }

  /** Job `j` of `build_warehouse` is its builder applied to its staged table. */
  lemma TargetRuns(stg: map<string, Table>, j: int)
    requires 0 <= j < |Targets| && Targets[j].input in stg
    ensures var t := stg[Targets[j].input];
      Build(Targets[j].how, t) ==
        if j == 0 then BuildDimUsers(t)
        else if j == 3 then BuildFactOrderItems(t)
        else if j == 4 then BuildFactEvents(t)
        else Ok(t)
  {
    TargetsAre();
  }

  /** No builder filters: every warehouse table has exactly its staged table's row count. */
  lemma BuildWarehouseKeepsRows(stg: map<string, Table>)
    requires BuildWarehouse(stg).Ok?
    ensures forall j :: 0 <= j < |Targets| ==>
      Targets[j].input in stg &&
      |BuildWarehouse(stg).value[Targets[j].output].rows| == |stg[Targets[j].input].rows|
  {
    TargetsAreDistinct();
    forall j | 0 <= j < |Targets|
      ensures Targets[j].input in stg
      ensures |BuildWarehouse(stg).value[Targets[j].output].rows| == |stg[Targets[j].input].rows|
    {
      assert JobOk(Build, stg, Targets[j]);
    }
  }
}
